=== FILE: README.md ===
# Wedding site: a verified functional model

This project models the rules of a Next.js wedding site (guest photo
uploads, an infinite-scroll gallery, RSVPs, notification mails, the
administrator's moderation and CSV export, and a few small helpers) in
Dafny. Each piece becomes an immutable datatype and a pure function.
Lemmas then relate the pieces to one another.

- **Collaborators are parameters.** The database is a sequence of stored
  records together with a `Health` value (`Up`, or `Down(message)` when the
  call throws). The mail relay, the auth provider and the upload host are
  outcomes handed in the same way. What the database assigns to a new
  record (its id and its time) is a `Stamp` parameter.
- **Ordering.** The database's `orderBy: { ...: 'desc' }` sorts on the
  timestamp and promises no order among equal timestamps. The model breaks
  such ties by insertion order, which is one of the orders the database may
  return. Ties are realistic: the upload page posts its files concurrently.
  Every lemma whose statement depends on the order across several queries
  (the gallery's pagination) therefore assumes distinct upload times. For
  that case `Records.OnlyNewestOrder` proves that the model's order is the
  only newest-first order there is.
- **Browser replies.** `fetch` results are classified as `OkResponse`,
  `ErrorResponse` or `NetworkError`. `Classify` is the browser's `ok` flag.
- **Local time.** A local time becomes an instant through the zone's offset
  from UTC, in milliseconds east of Greenwich. The offset is a parameter.
- **JavaScript semantics.** These are written out explicitly:
  - truthiness of optional strings, and `x || null`;
  - `String(n)`, `split` and `join` on a one-character separator;
  - `padStart(2, '0')`;
  - `%` on non-negative reals.

Three members model code in files under the `app/(main)` route group. `GalleryClient.InitialImages` is the gallery page's first query (`app/(main)/gallery/page.tsx`, lines 9-15). That query asks for the same records as the photos route with `take` 12, so its row cites the route. `GalleryClient.PageLoad` is the page awaiting that query without a catch (line 22) and handing the result to the client, so its row cites the client's initial state. `UploadApi.PostEach` is the upload page's loop, which posts each uploaded URL in turn (`app/(main)/upload/page.tsx`, lines 43-58). Its rows cite the route each post reaches.

Modules, one per source component: `Wrappers`, `Strings`, `Ordering`,
`Records`, `PhotosApi`, `GalleryClient`, `UploadZone`, `UploadApi`,
`RsvpApi`, `SignUp`, `Mail`, `RsvpForm`, `Calendar`, `RsvpExport`,
`Countdown`, `DownloadName`, `Moderation`.

Some behaviours of the code are easy to misread, so they are stated here:

- **CSV quoting.** The export quotes every cell, the guest count included.
- **CSV guest count.** The export writes the stored guest count of a guest
  who does not attend. The RSVP route stores 0 in that case, so the cell
  reads 0.
- **Upload status.** A successful upload answers with status 200.
- **Role-update failure.** At sign-up, the role update sits inside the
  provider's `try`. When it fails, the route answers 400 with the thrown
  message, although the account was already created.
- **Sign-up reply.** The reply carries the user as the provider returned
  it, without the role written afterwards.
- **Admin photo lists.** Both admin photo views fetch `/api/photos` without
  a query. The route's default page size limits them to the 12 newest
  records. They are not paginated.

## Model

| member | source | states |
|---|---|---|
| `Wrappers.OrNull` | app/api/upload/route.ts:15-17 | an optional string is kept exactly when it is truthy; `undefined`, `null` and `''` all become null |
| `Wrappers.Classify` | components/sections/rsvp-section.tsx:66 | a reply counts as OK exactly when its status is in 200..299; a reply that arrived is never a network error |
| `Strings.IntToString` | lib/email/nodemailer.ts:29 | `String(n)` is non-empty and starts with a minus sign exactly for negative numbers; the rest is all digits and reads back as the number's magnitude |
| `Strings.NatToString` | components/countdown-timer.tsx:48 | `String(n)` of a non-negative number is all digits with no leading zero, and has one character exactly below ten |
| `Strings.ParseNatToString` | components/countdown-timer.tsx:48 | reading the decimal spelling of a number back gives the number |
| `Strings.SplitJoin` | app/admin/dashboard/rsvp/page.tsx:70-72 | splitting a join at its separator gives back the pieces when no piece contains the separator |
| `Strings.JoinSplit` | app/admin/dashboard/rsvp/page.tsx:70-72 | joining the pieces of a split with the same separator rebuilds the string |
| `Strings.SplitCountsSeparator` | components/gallery/download-button.tsx:18 | a split has more than one piece exactly when the separator occurs |
| `Strings.SplitFirstPiece` | app/api/auth/sign-up/route.ts:37 | the first piece of a split is the longest separator-free prefix, and it is followed by the separator whenever there is one |
| `Strings.SplitLastPiece` | components/gallery/download-button.tsx:18 | the last piece of a split is the longest separator-free suffix, and it is preceded by the separator whenever there is one |
| `Ordering.SortDesc` | app/api/photos/route.ts:11-15 | the newest-first order is a permutation of the stored records |
| `Ordering.SortDescSorted` | app/api/rsvp/route.ts:47-49 | in the newest-first order every record is at least as recent as every later one |
| `Ordering.SortDescDistinct` | app/api/photos/route.ts:11-15 | ordering the records never duplicates an identity |
| `Ordering.SortedUnique` | app/api/photos/route.ts:11-15 | without two equal timestamps, the same records have only one newest-first order |
| `Records.NewestImages` | app/api/photos/route.ts:11-15 | the image listing holds the same records as the store, newest upload first |
| `Records.OnlyNewestOrder` | app/api/photos/route.ts:11-15 | with distinct upload times, any newest-first listing the database may return is the model's listing |
| `Records.NewestRsvps` | app/api/rsvp/route.ts:47-49 | the RSVP listing holds the same replies as the store, newest first |
| `PhotosApi.Window` | app/api/photos/route.ts:11-15 | the page selected by `skip` and `take` is entries `skip`, `skip+1`, … up to `take` of them, and is empty once `skip` passes the end |
| `PhotosApi.Get` | app/api/photos/route.ts:5-25 | a missing `skip` is 0 and a missing `take` is 12; a healthy database answers 200 with that window of the newest-first records, which are all drawn from the store; a failure answers 500 "Failed to fetch images" |
| `PhotosApi.RemoveId` | app/api/photos/route.ts:39-41 | removal never adds records |
| `PhotosApi.RemoveIdMembers` | app/api/photos/route.ts:39-41 | after removal, a record remains exactly when it was stored and carries another id |
| `PhotosApi.RemoveIdExactlyOne` | app/api/photos/route.ts:39-43 | with unique ids, removing entry k's id drops exactly entry k and keeps every other entry in order |
| `PhotosApi.Delete` | app/api/photos/route.ts:27-51 | a missing or empty id is a 400 "ID required"; a failing store or an unknown id is a 500 "Failed to delete image"; a refusal leaves the store untouched; success happens exactly for a stored id with a healthy database, and removes that id while keeping every other record |
| `PhotosApi.DeleteRemovesExactlyOne` | app/api/photos/route.ts:39-43 | deleting a stored record answers success and leaves the store without exactly that one record |
| `GalleryClient.InitialImages` | app/api/photos/route.ts:11-15 | the gallery page starts from the 12 newest records, or all of them when there are fewer |
| `GalleryClient.Init` | components/gallery/gallery-client.tsx:14-17 | more pages are expected exactly when the first page holds at least 12 images |
| `GalleryClient.PageLoad` | components/gallery/gallery-client.tsx:14-17 | the gallery page renders nothing when its unguarded first query fails; otherwise the client starts idle from the 12 newest records, expecting more exactly when there are at least 12 |
| `GalleryClient.BeginLoad` | components/gallery/gallery-client.tsx:20-27 | nothing happens while a load is in flight or after the end; otherwise the request is skip = images held, take = 12 |
| `GalleryClient.FinishLoad` | components/gallery/gallery-client.tsx:28-40 | a successful non-empty page is appended and more are expected exactly when it was full; an empty or failed page ends scrolling; a thrown fetch changes nothing; loading always ends |
| `GalleryClient.OnIntersect` | components/gallery/gallery-client.tsx:43-51 | the observer starts a load exactly when the sentinel is visible, more pages exist and none is in flight |
| `GalleryClient.IntersectIsLoad` | components/gallery/gallery-client.tsx:20-51 | a visible sentinel's load, answered by the route, ends in the same loader as a whole `loadMoreImages`; an invisible one does nothing |
| `GalleryClient.Respond` | components/gallery/gallery-client.tsx:25-30 | the client reads success exactly when the database is healthy, and then the route's page for its query |
| `GalleryClient.LoadMore` | components/gallery/gallery-client.tsx:20-41 | a load never drops or reorders images already shown |
| `GalleryClient.LoadAfterNewest` | components/gallery/gallery-client.tsx:20-41 | with distinct upload times, a load after the m newest records, with a healthy server, holds the m + 12 newest (or all) and expects more exactly while that many exist |
| `GalleryClient.LoadMorePreservesPrefix` | components/gallery/gallery-client.tsx:20-41 | with distinct upload times, over an unchanged store, whatever the server's health, a load keeps the loaded images a gap-free prefix of the newest-first records |
| `GalleryClient.LoadsFollowNewest` | components/gallery/gallery-client.tsx:20-41 | with distinct upload times, after k loads the gallery holds exactly the 12·(k+1) newest records (or all), and still scrolls exactly while that many exist |
| `GalleryClient.PaginationExhaustive` | components/gallery/gallery-client.tsx:30-35 | with distinct upload times, once the pages cover the store, the gallery holds every record exactly once, newest first, and stops asking |
| `GalleryClient.PaginationNoDuplicates` | components/gallery/gallery-client.tsx:26-31 | with distinct upload times and unique ids in the store, no image is ever shown twice |
| `GalleryClient.EndIsFinal` | components/gallery/gallery-client.tsx:20-21 | once the end is reached, further loads change nothing |
| `GalleryClient.Render` | components/gallery/gallery-client.tsx:65-115 | the grid is every loaded image in order, then every placeholder with its index |
| `GalleryClient.RenderExtends` | components/gallery/gallery-client.tsx:65-115 | more loaded images leave the placeholder tail unchanged and only extend the uploaded part |
| `GalleryClient.PlaceholdersUnaffectedByLoading` | components/gallery/gallery-client.tsx:95-114 | a load never changes the placeholder tail of the grid, and only extends the uploaded part |
| `UploadZone.Empty` | components/upload/custom-upload-zone.tsx:26-28 | the zone starts empty, idle, with the given limit |
| `UploadZone.EmptyZoneStarts` | components/upload/custom-upload-zone.tsx:26-83 | a new zone is valid, hides the success banner, ignores an upload click, and takes a first drop exactly when it fits the limit, then holding the dropped files in order, all pending |
| `UploadZone.Drop` | components/upload/custom-upload-zone.tsx:69-83 | a drop that would exceed the limit is refused and changes nothing; otherwise the files are appended in order as pending, at 0%, without a URL, and the limit still holds; this is the handler alone, and the control that guards it is modelled by `UploadZone.Act` |
| `UploadZone.Remove` | components/upload/custom-upload-zone.tsx:94-101 | removing index i deletes exactly entry i, and the others keep their order; this is the handler alone, and the control that guards it is modelled by `UploadZone.Act` |
| `UploadZone.StartUpload` | components/upload/custom-upload-zone.tsx:103-119 | an empty list is a no-op; otherwise the zone is busy, every entry, completed ones included, is uploading, and the files are handed over in list order; this is the handler alone, and the control that guards it is modelled by `UploadZone.Act` |
| `UploadZone.Progress` | components/upload/custom-upload-zone.tsx:59-66 | a tick sets the percentage of the uploading entries only, and changes nothing else |
| `UploadZone.Complete` | components/upload/custom-upload-zone.tsx:31-48 | with a result, entry i gets URL i, is completed at 100%, and the URLs are reported; without one the list is kept; the zone is idle after both |
| `UploadZone.Fail` | components/upload/custom-upload-zone.tsx:49-58 | every entry becomes an error with its URL and progress kept, and the zone is idle |
| `UploadZone.StepsPreserveValid` | components/upload/custom-upload-zone.tsx:59-119 | every transition keeps the list within its limit and every progress value between 0 and 100 |
| `UploadZone.Ticks` | components/upload/custom-upload-zone.tsx:59-66 | a sequence of progress ticks never changes the number of entries |
| `UploadZone.TicksKeepStatus` | components/upload/custom-upload-zone.tsx:59-66 | progress ticks never change an entry's file, URL or status |
| `UploadZone.SuccessfulBatch` | components/upload/custom-upload-zone.tsx:103-121 | start, any progress, then success with one URL per file gives every file its own URL and shows the success banner |
| `UploadZone.CompleteShowsBanner` | components/upload/custom-upload-zone.tsx:121 | after a success the banner shows exactly when the list is non-empty |
| `UploadZone.FailedBatch` | components/upload/custom-upload-zone.tsx:49-58 | a failed batch never shows the banner and leaves the zone idle |
| `UploadZone.FullZoneRefusesDrops` | components/upload/custom-upload-zone.tsx:85-92 | a full list refuses every non-empty drop |
| `UploadZone.DefaultZoneTakesFive` | components/upload/custom-upload-zone.tsx:26 | a zone mounted without a limit takes a first drop of at most five files, and a drop of five disables the drop area |
| `UploadZone.Act` | components/upload/custom-upload-zone.tsx:85-247 | a guest action goes through the rendered controls: a drop reaches `onDrop` only while idle and below the limit, a remove only for an entry that is not uploading, and an upload click only for an idle, non-empty, not-all-completed list; a disabled or hidden control changes nothing |
| `UploadZone.ActWhileUploading` | components/upload/custom-upload-zone.tsx:85-247 | while a batch is in flight no drop, remove or upload click has any effect |
| `UploadZone.GuardedStepsKeepBatch` | components/upload/custom-upload-zone.tsx:31-119 | every guest action and every callback keeps "while busy, every entry is uploading", so a completion never marks a file that was not sent |
| `UploadZone.ThrownStartStaysBusy` | components/upload/custom-upload-zone.tsx:103-119 | when `startUpload` throws, the catch only logs: the zone stays busy with every entry uploading, and no control has any effect afterwards |
| `UploadApi.Post` | app/api/upload/route.ts:6-42 | status 200 exactly when the create can succeed; then one record is appended with the request's URL and caption and each guest field kept exactly when truthy, and the notice carries the caption, the raw guest fields and `imageUrl = url`, and a send error is logged exactly when the relay fails; otherwise 500 "Failed to upload image", no record and no notice |
| `UploadApi.MailFailureIsHarmless` | app/api/upload/route.ts:21-34 | a failing mail relay changes neither the reply, the store nor the notice attempted; the failure appears only as the logged error, and only after a record was created |
| `UploadApi.PostKeepsIdsUnique` | app/api/upload/route.ts:11-19 | creating a record keeps the stored ids unique |
| `UploadApi.PostEach` | app/api/upload/route.ts:6-42 | submitting N URLs yields one reply per URL |
| `UploadApi.PostEachCreatesOnePerUrl` | app/api/upload/route.ts:11-34 | with a healthy database, N URLs store exactly N records after the old ones, record i carrying URL i and the shared caption, and every reply is 200 |
| `RsvpApi.PartySize` | app/api/rsvp/route.ts:16 | a guest who declines brings nobody; one who attends brings the count sent |
| `RsvpApi.Post` | app/api/rsvp/route.ts:5-43 | a failing create is a 500 "Failed to submit RSVP" with nothing stored or mailed; otherwise one reply is appended with party size 0 when declining, a message kept exactly when truthy, and a notice with the same party size and the raw message, and a send error is logged exactly when the relay fails |
| `RsvpApi.Get` | app/api/rsvp/route.ts:45-57 | a healthy database lists every stored reply, newest first; a failure is a 500 "Failed to fetch RSVPs" |
| `RsvpApi.MailFailureIsHarmless` | app/api/rsvp/route.ts:21-35 | a failing mail relay changes neither the reply, the store nor the notice attempted; the failure appears only as the logged error, and only after a reply was stored |
| `RsvpApi.StoredAndMailedAgree` | app/api/rsvp/route.ts:16-29 | the mail shows the stored party size, and has a Message paragraph exactly when a message was stored, carrying it |
| `RsvpApi.ListingShowsExactlyTheStore` | app/api/rsvp/route.ts:45-50 | a stored reply shows in the next listing, which holds nothing else but the earlier replies |
| `SignUp.DefaultName` | app/api/auth/sign-up/route.ts:37 | the default name is the email up to its first '@', or the whole email when it has none |
| `SignUp.ErrorMessage` | app/api/auth/sign-up/route.ts:64-71 | a thrown `Error` yields its own message; anything else yields "Failed to create user" |
| `SignUp.SetRole` | app/api/auth/sign-up/route.ts:52-57 | the role is written on the account with that id, and every other account is unchanged |
| `SignUp.Post` | app/api/auth/sign-up/route.ts:6-79 | a missing email or password is a 400 before any lookup; the provider is called exactly for a new email with a healthy lookup, with the default name when none is given; a 200 always carries a user |
| `SignUp.AcceptedExactly` | app/api/auth/sign-up/route.ts:42-63 | the request succeeds exactly when both fields are given, the email is new, the provider returns a user with an id, and any requested role could be written; the reply then carries that user |
| `SignUp.RefusalsInOrder` | app/api/auth/sign-up/route.ts:12-78 | a failing lookup is a 500, an existing email a 409, a provider exception a 400 with its message, and a missing user a 500, each leaving the accounts unchanged; a user without an id is a 500 |
| `SignUp.SuccessStoresAccount` | app/api/auth/sign-up/route.ts:51-63 | after success there is exactly one new account, carrying the requested role when one was given, and no other account changes |
| `SignUp.DuplicateEmailRefused` | app/api/auth/sign-up/route.ts:19-29 | an email that already has an account is a 409, creates nothing and never reaches the provider |
| `Mail.Optional` | lib/email/nodemailer.ts:55-57 | an optional paragraph is present exactly when its value is truthy |
| `Mail.RsvpMail` | lib/email/nodemailer.ts:11-37 | sent from GMAIL_USER to ADMIN_EMAIL; the subject is "New RSVP: name - Attending/Not Attending"; name, email, attendance and guest count come first; the Message paragraph is present exactly when the message is truthy |
| `Mail.UploadMail` | lib/email/nodemailer.ts:39-66 | sent from GMAIL_USER to ADMIN_EMAIL with the fixed subject; the caption comes first, and the image URL is the link target, link text and image source |
| `Mail.ParagraphRendered` | lib/email/nodemailer.ts:22-33 | every paragraph of a body appears in the markup sent |
| `Mail.RsvpMailShowsFields` | lib/email/nodemailer.ts:26-30 | the RSVP mail's markup shows name, email, attendance and guest count, and the message whenever it is truthy |
| `Mail.UploadMailShowsPicture` | lib/email/nodemailer.ts:54-59 | the upload mail's markup shows the caption, a link to the image URL labelled with it, and the image itself |
| `Mail.UploadMailOptionalFields` | lib/email/nodemailer.ts:54-57 | each guest name, email and phone paragraph appears exactly when that field is truthy, and none is titled Message |
| `Mail.UploadMailOnlyNoticeFields` | lib/email/nodemailer.ts:54-57 | every paragraph of the upload mail is the caption or one of the guest's fields |
| `RsvpForm.Initial` | components/sections/rsvp-section.tsx:29-35 | the form starts blank, with 'yes' and one guest, and idle |
| `RsvpForm.Payload` | components/sections/rsvp-section.tsx:59-63 | attending is true exactly for the 'yes' radio; name, email, count and message pass through unchanged |
| `RsvpForm.GuestCountVisible` | components/sections/rsvp-section.tsx:298 | the guest-count field is shown exactly when the payload would say the guest attends |
| `RsvpForm.StartSubmit` | components/sections/rsvp-section.tsx:51-64 | submitting marks the form busy and sends the payload of its fields |
| `RsvpForm.FinishSubmit` | components/sections/rsvp-section.tsx:66-85 | an OK answer resets the form to blank; a failed or thrown request keeps what was typed; the form is never left busy |
| `RsvpForm.OkResetsToInitial` | components/sections/rsvp-section.tsx:29-77 | an OK answer returns the form to its starting state, which shows the guest-count field and, sent untouched, stores one attending guest with no message |
| `RsvpForm.SubmissionStoresWhatWasShown` | components/sections/rsvp-section.tsx:51-86 | a submission against a healthy route is OK, blanks the form, stores no guests when the count field was hidden, and stores an empty message as none |
| `RsvpForm.FailedSubmissionKeepsForm` | components/sections/rsvp-section.tsx:78-85 | a database failure stores nothing and keeps what the guest typed |
| `RsvpForm.ReceptionEnd` | components/sections/rsvp-section.tsx:17-23 | the reception ends at local midnight starting 2026-01-12, in every zone |
| `RsvpForm.EndIsTwelveHoursAfterStart` | components/sections/rsvp-section.tsx:17-23 | the end is twelve hours after the 12:00 start of the reception |
| `RsvpForm.EventOverByLocalDay` | components/sections/rsvp-section.tsx:37-42 | on 2026-01-11 and before, the event is not over; on later local days it is, except at the end instant itself |
| `RsvpForm.IsEventOver` | components/sections/rsvp-section.tsx:37-41 | the event is over exactly when more than twelve hours have passed since the reception's local noon start; `RsvpForm.EventOverByLocalDay` and `RsvpForm.EventOverIsFinal` place that moment on the calendar and show it is final |
| `RsvpForm.EventOverIsFinal` | components/sections/rsvp-section.tsx:37-46 | once over, the event stays over at every later check |
| `Calendar.DaysInMonth` | components/sections/rsvp-section.tsx:20 | months have 28 to 31 days, and February has 29 exactly in leap years |
| `Calendar.NextDay` | components/sections/rsvp-section.tsx:20 | `setDate(getDate() + 1)` gives a valid date in the same year, or the first of January of the next |
| `Calendar.DaysBeforeMonth` | components/sections/rsvp-section.tsx:20 | every month before a given one contributes between 28 and 31 days to its offset in the year |
| `Calendar.YearLength` | components/sections/rsvp-section.tsx:20 | a leap year adds 366 days and any other year 365 |
| `Calendar.NextDayIsOneLater` | components/sections/rsvp-section.tsx:19-20 | the next date is exactly one day after the current one |
| `Calendar.LocalInstant` | components/sections/rsvp-section.tsx:18 | a local wall-clock time, shifted by the zone offset, is its day's start plus its hours and minutes |
| `Calendar.LocalDay` | components/sections/rsvp-section.tsx:21 | an instant falls within the local day it is assigned to |
| `Calendar.MidnightStartsItsDay` | components/sections/rsvp-section.tsx:21 | `setHours(0, 0, 0, 0)` lands on the first instant of the same local day |
| `RsvpExport.Cells` | components/admin/rsvp-table.tsx:51-58 | cells in header order: name, email, Yes/No, the stored guest count even when declining, the message or '' when absent, the formatted date |
| `RsvpExport.Quote` | app/admin/dashboard/rsvp/page.tsx:71 | a cell is exported between two double quotes with its text unchanged inside |
| `RsvpExport.QuoteAll` | components/admin/rsvp-table.tsx:61 | every cell of a line is quoted, in order |
| `RsvpExport.Body` | app/admin/dashboard/rsvp/page.tsx:61-72 | one line per RSVP, in list order |
| `RsvpExport.LineRoundTrip` | app/admin/dashboard/rsvp/page.tsx:71 | a line of cells without commas or line feeds reads back as those cells and holds no line feed |
| `RsvpExport.HeaderRoundTrip` | app/admin/dashboard/rsvp/page.tsx:60 | the header line reads back as the six column names |
| `RsvpExport.HeaderLine` | components/admin/rsvp-table.tsx:50-62 | the first line is the six quoted column names joined by commas |
| `RsvpExport.CsvLineStructure` | app/admin/dashboard/rsvp/page.tsx:70-72 | the export has exactly one header line and one line per RSVP, with no trailing newline |
| `RsvpExport.CsvRoundTrip` | components/admin/rsvp-table.tsx:49-62 | reading the export back gives the header row and each RSVP's cells, in order, whenever no cell holds a comma or line feed |
| `RsvpExport.Csv` | components/admin/rsvp-table.tsx:49-62 | the file starts with the header line, alone when there are no replies and otherwise followed by a line feed; `RsvpExport.CsvRoundTrip` reads it back to the header row and each reply's cells whenever no cell holds a comma or line feed |
| `RsvpExport.QuoteMatchesRfcIffNoQuote` | components/admin/rsvp-table.tsx:61 | the export matches RFC 4180's escaped field exactly when the cell holds no double quote |
| `RsvpExport.AttendingCount` | app/admin/dashboard/rsvp/page.tsx:86 | the attending count never exceeds the number of replies |
| `RsvpExport.TotalGuests` | components/admin/rsvp-table.tsx:74 | the total is 0 when nobody attends and never negative when no count is; `RsvpExport.FiguresAreFilters` fixes it as the sum of the attending replies' counts |
| `RsvpExport.Attending` | components/admin/rsvp-table.tsx:73 | the filter keeps exactly the attending replies |
| `RsvpExport.FiguresAreFilters` | components/admin/rsvp-table.tsx:73-74 | the count is the number of attending replies, and the total sums the guest counts of exactly those |
| `RsvpExport.FiguresSplit` | app/admin/dashboard/rsvp/page.tsx:86-87 | both figures add up over any split of the reply list |
| `RsvpExport.TotalOverStoredReplies` | app/admin/dashboard/rsvp/page.tsx:87 | over replies where a decline stores zero, the total is the sum of all stored counts |
| `RsvpExport.GuestsCoverAttendees` | components/admin/rsvp-table.tsx:73-74 | when every attending party has at least one guest, the total is at least the attending count |
| `RsvpExport.GuestsCell` | app/admin/dashboard/rsvp/page.tsx:134 | the table shows the guest count for an attending reply and '-' otherwise |
| `RsvpExport.MessageCell` | components/admin/rsvp-table.tsx:118 | the table shows the message, or '-' when it is absent or empty |
| `RsvpExport.TableAgreesWithExport` | components/admin/rsvp-table.tsx:116-118 | table and export show the same guest count exactly for attending replies, and the same message exactly when one is present |
| `Countdown.WeddingInstant` | lib/constants.ts:1 | the ceremony is at 09:00 local time on 2026-01-11 |
| `Countdown.IntDecompose` | components/countdown-timer.tsx:21-24 | hours below 24, minutes and seconds below 60, and the four fields add up to the whole seconds left |
| `Countdown.Tick` | components/countdown-timer.tsx:16-27 | with no time left the display keeps its previous values; otherwise it shows bounded fields that add up to the whole seconds left |
| `Countdown.DaysAgree` | components/countdown-timer.tsx:21 | the floating division floors to the whole days left |
| `Countdown.HoursAgree` | components/countdown-timer.tsx:22 | `floor((diff / 3600000) % 24)` on reals is the integer hour of the day |
| `Countdown.MinutesAgree` | components/countdown-timer.tsx:23 | `floor((diff / 1000 / 60) % 60)` on reals is the integer minute of the hour |
| `Countdown.SecondsAgree` | components/countdown-timer.tsx:24 | `floor((diff / 1000) % 60)` on reals is the integer second of the minute |
| `Countdown.Decompose` | components/countdown-timer.tsx:21-24 | for a positive difference, the real-number computation as written equals the integer decomposition, so its fields are in range and add up to the whole seconds left |
| `Countdown.Pad2` | components/countdown-timer.tsx:48 | values below ten get a leading zero to two digits; larger values, days above 99 included, are shown unchanged |
| `Countdown.Pad2ReadsBack` | components/countdown-timer.tsx:48 | the padded text reads back as the value, and is two characters below ten |
| `Countdown.CeremonyBeforeReceptionEnd` | lib/constants.ts:1 | the countdown reaches zero fifteen hours before the RSVP section closes, in every zone |
| `DownloadName.FileName` | components/gallery/download-button.tsx:18 | the download name is never empty and never contains '/' |
| `DownloadName.FileNameIsLastSegment` | components/gallery/download-button.tsx:18 | the name is the whole URL when it has no '/', the part after the last '/' otherwise, and "image.jpg" for an empty URL or one ending in '/' |
| `Moderation.RowActions` | components/admin/photo-manager.tsx:134-153 | each row offers approve exactly when unapproved and unapprove exactly when approved, then delete |
| `Moderation.ActionRequest` | app/admin/dashboard/photos/page.tsx:157-174 | approve sends approved = true, unapprove sends false, and delete sends a removal, all for the row's id |
| `Moderation.ToggleNegates` | components/admin/photo-manager.tsx:134-153 | the toggle a row offers sends the negation of its flag, and toggling back restores it |
| `Moderation.Badge` | components/admin/photo-manager.tsx:125-127 | the badge reads "Approved" exactly when approved, and "Pending" otherwise |
| `Moderation.GuestLabel` | app/admin/dashboard/photos/page.tsx:142-145 | the guest column shows the guest's name, or "Anonymous" when it is absent or empty, and is never empty |
| `Moderation.HandleApprove` | components/admin/photo-manager.tsx:51-66 | the approval request is always sent, and the list is fetched again exactly after an OK answer |
| `Moderation.HandleDelete` | components/admin/photo-manager.tsx:68-83 | a delete is sent exactly when confirmed, and the list is fetched again exactly when confirmed and answered OK |
| `Moderation.FetchImages` | app/admin/dashboard/photos/page.tsx:47-59 | a successful fetch replaces the list, a failed one keeps it, and loading ends either way |
| `Moderation.ShouldRedirect` | app/admin/dashboard/photos/page.tsx:37-41 | the page redirects to the login exactly when the session is resolved and absent |
| `Moderation.PageView` | app/admin/dashboard/photos/page.tsx:95-193 | the page shows the loading line exactly while the session or the first fetch is pending, and otherwise the table of the rows it holds, with the empty notice exactly under an empty table |
| `Moderation.GuardCoversListing` | app/admin/dashboard/photos/page.tsx:37-97 | while the session is pending the page neither redirects nor lists; a visitor without a session who is shown the table is always sent to the login; a signed-in one never is |
| `Moderation.FirstFetchShows` | components/admin/photo-manager.tsx:30-49 | the first table is the fetched rows, or, when the first fetch fails or throws, an empty table with the empty notice |
| `Moderation.AdminListing` | components/admin/photo-manager.tsx:37-43 | the admin views list exactly the newest records up to the default page size of 12, newest first, or nothing on a failure |
| `Moderation.ConfirmedDeleteDisappears` | app/admin/dashboard/photos/page.tsx:78-93 | a confirmed delete of a stored record refetches a list that no longer shows it; an unconfirmed one sends nothing |
| `Moderation.DeleteThenRefresh` | app/admin/dashboard/photos/page.tsx:47-93 | after a confirmed delete and its refetch, a healthy database gives a table without the record, a failing one leaves the table as it was; an unconfirmed delete leaves the panel untouched |
| `Moderation.ToggleHandled` | components/admin/photo-manager.tsx:134-153 | the row's toggle, sent through `handleApprove` with its button's flag, is the row's action request, flips the flag and the badge, and refetches exactly after an OK answer |
| `Moderation.UploaderShown` | components/admin/photo-manager.tsx:118-123 | a stored upload's guest column shows the name the guest typed, or "Anonymous" when left empty, and the email line exactly when an email was given |

## Left out

- Image compression before upload and a `PATCH /api/photos/{id}` handler are not part of this model. Neither exists in the code it follows. The PATCH request the moderation views send is modelled only as the request they build.
- Browser I/O is left out: object-URL previews and their revocation, `setInterval` timers, the IntersectionObserver's own triggering, toasts, `confirm()` (a boolean parameter), and the download anchor and blob.
- `toLocaleDateString` is an uninterpreted `int -> string` parameter of the export.
- `RsvpExport.Cells`: the guest count is written with `String(n)` on integers. JavaScript's number formatting of non-integers and `NaN` is not modelled.
- The mail HTML keeps the template's tags and attributes in order, but not its indentation whitespace. Sending the mail (`transporter.sendMail`) is the `mail` health parameter.
- `Countdown.Tick`: the real-number computation is modelled exactly, not in IEEE double arithmetic. The clock and `WEDDING_DATE` are read as integers of milliseconds.
- Time zones are a fixed offset over the days concerned, so daylight-saving transitions are not modelled.
- `PhotosApi.Get`: `skip` and `take` arrive already parsed as non-negative integers. `parseInt` failures (`NaN`) and negative values, which the ORM would reject, are not modelled.
- `SignUp.Post`: the request arrives parsed, each field absent or a string. Malformed JSON makes `request.json()` throw, and the outer catch answers 500 "Failed to create user"; the model never gives that reply for a missing body. A truthy `email` that is not a string, sent without a name, throws at `email.split` inside the inner try, which answers 400 with the TypeError's message; the model has no such input.
- The drop library's own filtering (the `accept` types and its per-drop `maxFiles` check) happens before `onDrop`; the model takes the list it passes on as given.
- Async interleaving is not modelled. Overlapping fetches, a progress callback racing completion, and `Promise.all` over upload requests are each taken as atomic steps in order.
- The auth provider's internals are left out: password hashing, sessions and its own validation. Only the outcome it reports is modelled.
- `RsvpExport.Quote`: the export does not double embedded double quotes (RFC 4180, section 2, rule 7). It uses LF rather than CRLF (rule 2). That is the behaviour modelled, so the read-back lemmas hold only for cells without commas and line feeds.
- `GalleryClient.LoadAfterNewest` assumes distinct upload times. With ties, successive page queries may order the tied records differently, and a page may then repeat or skip one.
- `GalleryClient.LoadMorePreservesPrefix` assumes distinct upload times, for the same reason.
- `GalleryClient.LoadsFollowNewest` assumes distinct upload times, for the same reason.
- `GalleryClient.PaginationExhaustive` assumes distinct upload times, for the same reason.
- `GalleryClient.PaginationNoDuplicates` assumes distinct upload times, for the same reason.
- `UploadApi.Post`: the request arrives parsed, with every field present and of its declared type. Malformed JSON, a missing `url` or `caption`, or a field of the wrong type make the create throw. The outer catch then answers the same 500 "Failed to upload image" as a refused create. The model reaches that reply only through a failing database or a taken id.
- `RsvpApi.Post`: the request arrives parsed, with every field present and of its declared type. Malformed JSON or a missing or mistyped field make the create throw. The outer catch then answers the same 500 "Failed to submit RSVP" as a failing database, which is the only way the model reaches it.

=== FILE: calendar.dfy ===
/** Proleptic Gregorian dates and the millisecond instants the browser's
    `Date` maps local wall-clock times to. A local time is turned into an
    instant through the zone's offset from UTC (milliseconds east of
    Greenwich), taken as fixed over the few days that matter here. */
module Calendar {
  const MsPerDay: int := 86400000
  const MsPerHour: int := 3600000
  const MsPerMinute: int := 60000

  datatype Date = Date(year: int, month: int, day: int)

  predicate IsLeap(y: int) {
    y % 4 == 0 && (y % 100 != 0 || y % 400 == 0)
  }

  function DaysInMonth(y: int, m: int): (n: int)
    requires 1 <= m <= 12
    ensures 28 <= n <= 31
    ensures m == 2 ==> (n == 29 <==> IsLeap(y))
  {
    if m == 2 then (if IsLeap(y) then 29 else 28)
    else if m == 4 || m == 6 || m == 9 || m == 11 then 30
    else 31
  }

  predicate Valid(d: Date) {
    1 <= d.month <= 12 && 1 <= d.day <= DaysInMonth(d.year, d.month)
  }

  /** Leap days in the years before `y`, counted from year 1. */
  function LeapsBefore(y: int): int {
    (y - 1) / 4 - (y - 1) / 100 + (y - 1) / 400
  }

  /** Days from 1970-01-01 to the first of January of `y`. */
  function DaysBeforeYear(y: int): int {
    365 * (y - 1970) + LeapsBefore(y) - LeapsBefore(1970)
  }

  /** Days from the first of January of `y` to the first of month `m`:
      each earlier month contributes between 28 and 31 days. */
  function DaysBeforeMonth(y: int, m: int): (n: int)
    requires 1 <= m <= 12
    ensures 28 * (m - 1) <= n <= 31 * (m - 1)
    decreases m
  {
    if m == 1 then 0 else DaysBeforeMonth(y, m - 1) + DaysInMonth(y, m - 1)
  }

  /** Days since 1970-01-01 (negative before it). */
  function DayIndex(d: Date): int
    requires Valid(d)
  {
    DaysBeforeYear(d.year) + DaysBeforeMonth(d.year, d.month) + d.day - 1
  }

  /** `setDate(getDate() + 1)`: the following calendar day, rolling over
      the month and the year. */
  function NextDay(d: Date): (r: Date)
    requires Valid(d)
    ensures Valid(r)
    ensures r.year == d.year || (r.year == d.year + 1 && r.month == 1 && r.day == 1)
  {
    if d.day < DaysInMonth(d.year, d.month) then d.(day := d.day + 1)
    else if d.month < 12 then Date(d.year, d.month + 1, 1)
    else Date(d.year + 1, 1, 1)
  }

  /** A year adds 366 days when it is a leap year and 365 otherwise. */
  lemma YearLength(y: int)
    ensures DaysBeforeYear(y + 1) - DaysBeforeYear(y) == if IsLeap(y) then 366 else 365
  {
    MultipleStep(y, 4);
    MultipleStep(y, 100);
    MultipleStep(y, 400);
    if y % 100 == 0 {
      DivisionOf(y, 4, 25 * (y / 100), 0);
    }
    if y % 400 == 0 {
      DivisionOf(y, 100, 4 * (y / 400), 0);
    }
  }

  /** Stepping from `y - 1` to `y` adds one multiple of `d` exactly when
      `y` is one. */
  lemma MultipleStep(y: int, d: int)
    requires d > 0
    ensures y / d - (y - 1) / d == if y % d == 0 then 1 else 0
  {
    var q, r := (y - 1) / d, (y - 1) % d;
    assert y - 1 == q * d + r && 0 <= r < d;
    if r == d - 1 {
      assert y == (q + 1) * d;
      DivisionOf(y, d, q + 1, 0);
    } else {
      DivisionOf(y, d, q, r + 1);
    }
  }

  /** Quotient and remainder are the unique pair with the remainder in range. */
  lemma DivisionOf(y: int, d: int, q: int, r: int)
    requires d > 0 && 0 <= r < d && y == q * d + r
    ensures y / d == q && y % d == r
  {
    var q', r' := y / d, y % d;
    assert y == q' * d + r' && 0 <= r' < d;
    if q > q' {
      AtLeastOnce(q - q', d);
      assert false;
    } else if q < q' {
      AtLeastOnce(q' - q, d);
      assert false;
    }
  }

  /** A positive number of `d`s is at least `d`. */
  lemma {:induction false} AtLeastOnce(a: int, d: int)
    requires a >= 1 && d > 0
    ensures a * d >= d
    decreases a
  {
    if a > 1 {
      AtLeastOnce(a - 1, d);
      assert a * d == (a - 1) * d + d;
    }
  }

  /** The months of a year add up to the year's length. */
  lemma MonthsFillYear(y: int)
    ensures DaysBeforeMonth(y, 12) + 31 == DaysBeforeYear(y + 1) - DaysBeforeYear(y)
  {
    YearLength(y);
  }

  /** The next day is exactly one day later. */
  lemma NextDayIsOneLater(d: Date)
    requires Valid(d)
    ensures DayIndex(NextDay(d)) == DayIndex(d) + 1
  {
    var y, m := d.year, d.month;
    if d.day < DaysInMonth(y, m) {
      assert NextDay(d) == Date(y, m, d.day + 1);
    } else if m < 12 {
      assert NextDay(d) == Date(y, m + 1, 1);
      assert DaysBeforeMonth(y, m + 1) == DaysBeforeMonth(y, m) + d.day;
      assert DayIndex(NextDay(d)) == DaysBeforeYear(y) + DaysBeforeMonth(y, m + 1);
    } else {
      assert NextDay(d) == Date(y + 1, 1, 1);
      MonthsFillYear(y);
      assert DayIndex(NextDay(d)) == DaysBeforeYear(y + 1);
    }
  }

  /** The instant of a local wall-clock time in a zone `offset`
      milliseconds east of UTC. */
  function LocalInstant(d: Date, hour: int, minute: int, offset: int): (t: int)
    requires Valid(d)
    ensures t + offset == DayIndex(d) * MsPerDay + hour * MsPerHour + minute * MsPerMinute
  {
    DayIndex(d) * MsPerDay + hour * MsPerHour + minute * MsPerMinute - offset
  }

  /** The local calendar day an instant falls on, as a day index. */
  function LocalDay(t: int, offset: int): (n: int)
    ensures n * MsPerDay <= t + offset < (n + 1) * MsPerDay
  {
    (t + offset) / MsPerDay
  }

  /** A local midnight falls on its own day. */
  lemma MidnightStartsItsDay(d: Date, offset: int)
    requires Valid(d)
    ensures LocalDay(LocalInstant(d, 0, 0, offset), offset) == DayIndex(d)
  {
    var k := DayIndex(d);
    assert LocalInstant(d, 0, 0, offset) + offset == k * MsPerDay;
    assert (k * MsPerDay) / MsPerDay == k;
  }
}

=== FILE: countdown.dfy ===
/** The wedding countdown: every second it splits the milliseconds left
    until the ceremony (2026-01-11 09:00 local time) into days, hours,
    minutes and seconds, and renders each as at least two digits. Once
    the ceremony has begun it stops updating and keeps what it showed. */
module Countdown {
  import Calendar
  import Strings

  datatype TimeLeft = TimeLeft(days: int, hours: int, minutes: int, seconds: int)

  /** The state before the first tick. */
  const Zero := TimeLeft(0, 0, 0, 0)

  const WeddingDay := Calendar.Date(2026, 1, 11)

  /** `WEDDING_DATE` in a zone `offset` milliseconds east of UTC. */
  function WeddingInstant(offset: int): (t: int)
    ensures t + offset == Calendar.DayIndex(WeddingDay) * Calendar.MsPerDay + 9 * Calendar.MsPerHour
  {
    Calendar.LocalInstant(WeddingDay, 9, 0, offset)
  }

  /** JavaScript's `%` on a non-negative number and a positive divisor. */
  function JsMod(x: real, n: int): real
    requires n > 0
  {
    x - (n as real) * ((x / n as real).Floor as real)
  }

  /** `calculateTimeLeft`'s arithmetic as written, on exact reals:
      floating-point quotients, `%` and `Math.floor`. For a positive
      difference it agrees with the integer split. */
  function Decompose(diff: int): (t: TimeLeft)
    requires diff > 0
    ensures t == IntDecompose(diff)
  {
    DaysAgree(diff);
    HoursAgree(diff);
    MinutesAgree(diff);
    SecondsAgree(diff);
    var d := diff as real;
    TimeLeft(
      (d / 86400000.0).Floor,
      JsMod(d / 3600000.0, 24).Floor,
      JsMod(d / 1000.0 / 60.0, 60).Floor,
      JsMod(d / 1000.0, 60).Floor)
  }

  /** The same split in integer arithmetic. */
  function IntDecompose(diff: int): (t: TimeLeft)
    requires diff > 0
    ensures 0 <= t.hours < 24 && 0 <= t.minutes < 60 && 0 <= t.seconds < 60 && t.days >= 0
    ensures t.days * 86400 + t.hours * 3600 + t.minutes * 60 + t.seconds == diff / 1000
  {
    var s := diff / 1000;
    var m := s / 60;
    var h := m / 60;
    assert m == diff / 60000 && h == diff / 3600000 && h / 24 == diff / 86400000;
    assert s == 60 * m + s % 60;
    assert m == 60 * h + m % 60;
    assert h == 24 * (h / 24) + h % 24;
    TimeLeft(diff / 86400000, (diff / 3600000) % 24, (diff / 60000) % 60, s % 60)
  }

  /** One tick: a positive difference replaces the state, otherwise the
      state stays as it was. */
  function Tick(prev: TimeLeft, diff: int): (t: TimeLeft)
    ensures diff <= 0 ==> t == prev
    ensures diff > 0 ==>
      && 0 <= t.hours < 24 && 0 <= t.minutes < 60 && 0 <= t.seconds < 60 && t.days >= 0
      && t.days * 86400 + t.hours * 3600 + t.minutes * 60 + t.seconds == diff / 1000
  {
    if diff > 0 then Decompose(diff) else prev
  }

  /** `Math.floor` of an integer plus a fraction is the integer. */
  lemma FloorOfFraction(m: int, f: real)
    requires 0.0 <= f < 1.0
    ensures (m as real + f).Floor == m
  {
  }

  /** The whole days agree: a positive real quotient floors to the
      integer quotient. */
  lemma DaysAgree(diff: int)
    requires diff > 0
    ensures (diff as real / 86400000.0).Floor == IntDecompose(diff).days
  {
    var q := diff / 86400000;
    var f := (diff % 86400000) as real / 86400000.0;
    assert diff as real / 86400000.0 == q as real + f;
    FloorOfFraction(q, f);
  }

  /** The hours agree: `floor((diff / 3600000) % 24)` on reals is the
      integer `(diff / 3600000) % 24`. */
  lemma HoursAgree(diff: int)
    requires diff > 0
    ensures JsMod(diff as real / 3600000.0, 24).Floor == IntDecompose(diff).hours
  {
    var q := diff / 3600000;
    var f := (diff % 3600000) as real / 3600000.0;
    var x := diff as real / 3600000.0;
    assert x == q as real + f;
    var g := ((q % 24) as real + f) / 24.0;
    assert x / 24.0 == (q / 24) as real + g;
    FloorOfFraction(q / 24, g);
    assert JsMod(x, 24) == (q % 24) as real + f;
    FloorOfFraction(q % 24, f);
  }

  /** The minutes agree; dividing by 1000 and then by 60 is dividing by
      60000 on reals. */
  lemma MinutesAgree(diff: int)
    requires diff > 0
    ensures JsMod(diff as real / 1000.0 / 60.0, 60).Floor == IntDecompose(diff).minutes
  {
    var q := diff / 60000;
    var f := (diff % 60000) as real / 60000.0;
    var x := diff as real / 1000.0 / 60.0;
    assert x == q as real + f;
    var g := ((q % 60) as real + f) / 60.0;
    assert x / 60.0 == (q / 60) as real + g;
    FloorOfFraction(q / 60, g);
    assert JsMod(x, 60) == (q % 60) as real + f;
    FloorOfFraction(q % 60, f);
  }

  /** The seconds agree. */
  lemma SecondsAgree(diff: int)
    requires diff > 0
    ensures JsMod(diff as real / 1000.0, 60).Floor == IntDecompose(diff).seconds
  {
    var q := diff / 1000;
    var f := (diff % 1000) as real / 1000.0;
    var x := diff as real / 1000.0;
    assert x == q as real + f;
    var g := ((q % 60) as real + f) / 60.0;
    assert x / 60.0 == (q / 60) as real + g;
    FloorOfFraction(q / 60, g);
    assert JsMod(x, 60) == (q % 60) as real + f;
    FloorOfFraction(q % 60, f);
  }

  /** `String(v).padStart(2, '0')`. */
  function Pad2(v: nat): (s: string)
    ensures Strings.AllDigits(s)
    ensures v < 10 ==> |s| == 2 && s[0] == '0'
    ensures v >= 10 ==> s == Strings.NatToString(v)
  {
    var t := Strings.NatToString(v);
    if |t| < 2 then "0" + t else t
  }

  /** Padding never changes the number shown, and pads only below ten. */
  lemma Pad2ReadsBack(v: nat)
    ensures Strings.ParseNat(Pad2(v)) == v
    ensures |Pad2(v)| == if v < 10 then 2 else |Strings.NatToString(v)|
  {
    Strings.ParseNatToString(v);
    if v < 10 {
      var t := Strings.NatToString(v);
      LeadingZero(t);
    }
  }

  /** A leading zero does not change a digit string's value. */
  lemma {:induction false} LeadingZero(t: string)
    requires Strings.AllDigits(t)
    ensures Strings.ParseNat("0" + t) == Strings.ParseNat(t)
    decreases |t|
  {
    if |t| > 0 {
      LeadingZero(t[..|t| - 1]);
      assert ("0" + t)[..|"0" + t| - 1] == "0" + t[..|t| - 1];
    } else {
      assert ("0" + t)[..0] == [];
    }
  }

  /** The countdown reaches zero when the ceremony starts, which is
      fifteen hours before the RSVP section closes. */
  lemma CeremonyBeforeReceptionEnd(offset: int)
    ensures Calendar.LocalInstant(Calendar.NextDay(WeddingDay), 0, 0, offset) - WeddingInstant(offset)
      == 15 * Calendar.MsPerHour
  {
    Calendar.NextDayIsOneLater(WeddingDay);
  }
}

=== FILE: download_name.dfy ===
/** The file name a gallery download is saved under: the text after the
    last `/` of the image URL, or "image.jpg" when that text is empty. */
module DownloadName {
  import Strings

  const Fallback := "image.jpg"

  /** `imageUrl.split('/').pop() || 'image.jpg'`. */
  function FileName(url: string): (name: string)
    ensures |name| > 0
    ensures '/' !in name
  {
    var parts := Strings.Split(url, '/');
    var last := parts[|parts| - 1];
    Strings.SplitLastPiece(url, '/');
    if last == "" then Fallback else last
  }

  /** The name is the URL's longest slash-free suffix when that suffix is
      non-empty: the whole URL when it has no slash, otherwise what
      follows its last slash, so the URL is a prefix, a slash and the
      name. An empty URL or one ending in a slash gets the fallback. */
  lemma FileNameIsLastSegment(url: string)
    ensures '/' !in url && url != "" ==> FileName(url) == url
    ensures url == "" || url[|url| - 1] == '/' ==> FileName(url) == Fallback
    ensures '/' in url && url[|url| - 1] != '/' ==>
      exists prefix :: url == prefix + "/" + FileName(url)
  {
    var parts := Strings.Split(url, '/');
    var last := parts[|parts| - 1];
    Strings.SplitLastPiece(url, '/');
    if '/' !in url {
      Strings.SplitNoSeparator(url, '/');
    }
    if url != "" && url[|url| - 1] == '/' {
      assert '/' in url;
    }
    if '/' in url && url[|url| - 1] != '/' {
      var prefix := url[..|url| - |last| - 1];
      assert url == prefix + "/" + last;
    }
  }
}

=== FILE: gallery_client.dfy ===
/** The guest gallery: an infinite-scroll loader that holds the images
    fetched so far, whether more may exist, and whether a fetch is in
    flight; and the grid it renders, uploaded images first and the fixed
    placeholder images after them. */
module GalleryClient {
  import opened Wrappers
  import opened Records
  import PhotosApi
  import Ordering

  /** The page size the client asks for. */
  const PageSize: nat := 12

  datatype Loader = Loader(images: seq<GalleryImage>, hasMore: bool, isLoading: bool)

  /** The query `?skip=&take=` of one page request. */
  datatype PageRequest = PageRequest(skip: nat, take: nat)

  /** What `fetch` + `response.json()` produced: a thrown request, or a
      JSON body with its `success` flag and its `data` array (empty when
      the body carried none). */
  datatype FetchOutcome = Threw | Answered(success: bool, data: seq<GalleryImage>)

  /** The first page the gallery page renders with: the twelve newest. */
  function InitialImages(images: seq<GalleryImage>): (r: seq<GalleryImage>)
    ensures r == NewestImages(images)[..PhotosApi.Min(PageSize, |images|)]
  {
    var reply := PhotosApi.Get(images, None, Some(PageSize), Up);
    assert reply.body.data == NewestImages(images)[..PhotosApi.Min(PageSize, |images|)];
    reply.body.data
  }

  /** The loader right after mount: more pages are expected only when the
      first page came back full. */
  function Init(initial: seq<GalleryImage>): (l: Loader)
    ensures l.images == initial && !l.isLoading
    ensures l.hasMore <==> |initial| >= PageSize
  {
    Loader(initial, |initial| >= PageSize, false)
  }

  /** The gallery page's render: its first query has no error handling,
      so a failing database throws out of the page and nothing renders;
      otherwise the client starts from the twelve newest images, expecting
      more exactly when that first page is full. */
  function PageLoad(images: seq<GalleryImage>, db: Health): (r: Option<Loader>)
    ensures r.None? <==> db.Down?
    ensures r.Some? ==>
      && r.value.images == NewestImages(images)[..PhotosApi.Min(PageSize, |images|)]
      && !r.value.isLoading
      && (r.value.hasMore <==> |images| >= PageSize)
  {
    if db.Down? then None else Some(Init(InitialImages(images)))
  }

  /** The first half of `loadMoreImages`: nothing happens while a fetch is
      in flight or once the end was reached; otherwise the loader marks
      itself busy and asks for the page after the images it holds. */
  function BeginLoad(l: Loader): (r: (Loader, Option<PageRequest>))
    ensures l.isLoading || !l.hasMore ==> r == (l, None)
    ensures !l.isLoading && l.hasMore ==>
      && r.1 == Some(PageRequest(|l.images|, PageSize))
      && r.0.isLoading
      && r.0.images == l.images && r.0.hasMore
  {
    if l.isLoading || !l.hasMore then (l, None)
    else (l.(isLoading := true), Some(PageRequest(|l.images|, PageSize)))
  }

  /** The second half of `loadMoreImages`: a successful non-empty page is
      appended; an empty or failed page ends the scroll; a thrown fetch
      changes nothing; the busy flag is always cleared. */
  function FinishLoad(l: Loader, o: FetchOutcome): (l': Loader)
    ensures !l'.isLoading
    ensures l.images <= l'.images
    ensures o.Threw? ==> l'.images == l.images && l'.hasMore == l.hasMore
    ensures o.Answered? && o.success && |o.data| > 0 ==>
      l'.images == l.images + o.data && (l'.hasMore <==> |o.data| >= PageSize)
    ensures o.Answered? && !(o.success && |o.data| > 0) ==>
      l'.images == l.images && !l'.hasMore
  {
    match o
    case Threw => l.(isLoading := false)
    case Answered(success, data) =>
      if success && |data| > 0 then Loader(l.images + data, |data| >= PageSize, false)
      else l.(hasMore := false, isLoading := false)
  }

  /** The intersection observer's callback: it only starts a load when
      the sentinel is visible, more pages may exist and none is loading. */
  function OnIntersect(l: Loader, intersecting: bool): (r: (Loader, Option<PageRequest>))
    ensures r.1.Some? <==> intersecting && l.hasMore && !l.isLoading
    ensures r.1.None? ==> r.0 == l
  {
    if intersecting && l.hasMore && !l.isLoading then BeginLoad(l) else (l, None)
  }

  /** The observer's load is `loadMoreImages` itself: once the sentinel
      is visible, the request it sends answered by the route gives the
      same loader as a whole load; an invisible sentinel does nothing. */
  lemma IntersectIsLoad(l: Loader, images: seq<GalleryImage>, db: Health)
    ensures var (busy, req) := OnIntersect(l, true);
      && (req.Some? ==> FinishLoad(busy, Respond(images, db, req.value)) == LoadMore(l, images, db))
      && (req.None? ==> busy == l && LoadMore(l, images, db) == l)
    ensures OnIntersect(l, false) == (l, None)
  {
  }

  /** What the client reads back from `GET /api/photos` for a request. */
  function Respond(images: seq<GalleryImage>, db: Health, req: PageRequest): (o: FetchOutcome)
    ensures o.Answered?
    ensures o.success <==> db.Up?
    ensures o.success ==> o.data == PhotosApi.Get(images, Some(req.skip), Some(req.take), Up).body.data
  {
    var reply := PhotosApi.Get(images, Some(req.skip), Some(req.take), db);
    match reply.body
    case Success(data) => Answered(true, data)
    case Failure(_) => Answered(false, [])
  }

  /** One whole `loadMoreImages` against the photos route over `images`. */
  function LoadMore(l: Loader, images: seq<GalleryImage>, db: Health): (l': Loader)
    ensures l.images <= l'.images
  {
    var (busy, req) := BeginLoad(l);
    match req
    case None => busy
    case Some(q) => FinishLoad(busy, Respond(images, db, q))
  }

  /** The loader after `k` loads, each answered by a healthy server. */
  function LoadRepeatedly(l: Loader, images: seq<GalleryImage>, k: nat): Loader
    decreases k
  {
    if k == 0 then l else LoadMore(LoadRepeatedly(l, images, k - 1), images, Up)
  }

  /** The loaded images are the newest records, in order, without gaps. */
  predicate PrefixOfNewest(l: Loader, images: seq<GalleryImage>) {
    var all := NewestImages(images);
    |l.images| <= |all| && l.images == all[..|l.images|]
  }

  /** Over an unchanged store, whatever the server's health, a load keeps
      the loaded images a prefix of the newest-first records. */
  lemma LoadMorePreservesPrefix(l: Loader, images: seq<GalleryImage>, db: Health)
    requires DistinctUploadTimes(images)
    requires PrefixOfNewest(l, images)
    ensures PrefixOfNewest(LoadMore(l, images, db), images)
    ensures l.images <= LoadMore(l, images, db).images
  {
    if l.hasMore && !l.isLoading && db.Up? {
      LoadAfterNewest(l, images, |l.images|);
    }
  }

  /** One load after the `m` newest records, with more expected and a
      healthy server, holds the `m + 12` newest (or all of them) and
      expects more exactly while that many exist. */
  lemma LoadAfterNewest(l: Loader, images: seq<GalleryImage>, m: nat)
    requires DistinctUploadTimes(images)
    requires m <= |images|
    requires l.images == NewestImages(images)[..m]
    requires l.hasMore && !l.isLoading
    ensures var l' := LoadMore(l, images, Up);
      && l'.images == NewestImages(images)[..PhotosApi.Min(m + PageSize, |images|)]
      && (l'.hasMore <==> m + PageSize <= |images|)
      && !l'.isLoading
  {
    var all := NewestImages(images);
    var m' := PhotosApi.Min(m + PageSize, |images|);
    var busy := l.(isLoading := true);
    assert BeginLoad(l) == (busy, Some(PageRequest(m, PageSize)));
    RespondUp(images, m);
    var o := Answered(true, all[m..m']);
    assert LoadMore(l, images, Up) == FinishLoad(busy, o);
    assert all[..m] + all[m..m'] == all[..m'];
  }

  /** A healthy server answers the page after the first `m` newest
      records with the next twelve (or the rest). */
  lemma RespondUp(images: seq<GalleryImage>, m: nat)
    requires m <= |images|
    ensures Respond(images, Up, PageRequest(m, PageSize))
      == Answered(true, NewestImages(images)[m..PhotosApi.Min(m + PageSize, |images|)])
  {
    assert PhotosApi.Get(images, Some(m), Some(PageSize), Up).body.data
      == PhotosApi.Window(NewestImages(images), m, PageSize);
  }

  /** After `k` loads from the first page, with a healthy server, the
      gallery holds exactly the `12 * (k + 1)` newest records (or all of
      them), and keeps scrolling exactly while that many exist. */
  lemma {:induction false} LoadsFollowNewest(images: seq<GalleryImage>, k: nat)
    requires DistinctUploadTimes(images)
    ensures var l := LoadRepeatedly(Init(InitialImages(images)), images, k);
      && l.images == NewestImages(images)[..PhotosApi.Min(PageSize * (k + 1), |images|)]
      && (l.hasMore <==> PageSize * (k + 1) <= |images|)
      && !l.isLoading
    decreases k
  {
    if k > 0 {
      LoadsFollowNewest(images, k - 1);
      var l := LoadRepeatedly(Init(InitialImages(images)), images, k - 1);
      assert LoadRepeatedly(Init(InitialImages(images)), images, k) == LoadMore(l, images, Up);
      assert PageSize * (k + 1) == PageSize * k + PageSize;
      LoadStep(images, l, PageSize * k);
    }
  }

  /** One load from the `c` newest records (or all of them), whether or
      not the end was reached, moves on to the `c + 12` newest. */
  lemma LoadStep(images: seq<GalleryImage>, l: Loader, c: nat)
    requires DistinctUploadTimes(images)
    requires l.images == NewestImages(images)[..PhotosApi.Min(c, |images|)]
    requires l.hasMore <==> c <= |images|
    requires !l.isLoading
    ensures var l' := LoadMore(l, images, Up);
      && l'.images == NewestImages(images)[..PhotosApi.Min(c + PageSize, |images|)]
      && (l'.hasMore <==> c + PageSize <= |images|)
      && !l'.isLoading
  {
    if l.hasMore {
      LoadAfterNewest(l, images, c);
    } else {
      EndIsFinal(l, images, Up);
      assert PhotosApi.Min(c, |images|) == |images| == PhotosApi.Min(c + PageSize, |images|);
    }
  }

  /** Once `12 * (k + 1)` exceeds the number of records, the gallery holds
      every record exactly once, newest first, and stops asking. */
  lemma PaginationExhaustive(images: seq<GalleryImage>, k: nat)
    requires DistinctUploadTimes(images)
    requires PageSize * (k + 1) > |images|
    ensures var l := LoadRepeatedly(Init(InitialImages(images)), images, k);
      && l.images == NewestImages(images)
      && !l.hasMore
      && multiset(l.images) == multiset(images)
      && Ordering.SortedDesc(l.images, UploadedAt)
  {
    LoadsFollowNewest(images, k);
    assert NewestImages(images)[..|images|] == NewestImages(images);
  }

  /** With unique ids in the store, the loaded gallery never shows the
      same record twice. */
  lemma PaginationNoDuplicates(images: seq<GalleryImage>, k: nat)
    requires DistinctUploadTimes(images)
    requires UniqueImageIds(images)
    ensures Ordering.DistinctBy(LoadRepeatedly(Init(InitialImages(images)), images, k).images, ImageId)
  {
    LoadsFollowNewest(images, k);
    Ordering.SortDescDistinct(images, UploadedAt, ImageId);
    Ordering.PrefixDistinct(NewestImages(images), PhotosApi.Min(PageSize * (k + 1), |images|), ImageId);
  }

  /** Once the end was reached, further scrolling changes nothing. */
  lemma EndIsFinal(l: Loader, images: seq<GalleryImage>, db: Health)
    requires !l.hasMore
    ensures LoadMore(l, images, db) == l
  {
  }

  /** One tile of the gallery grid. */
  datatype Tile = Uploaded(image: GalleryImage) | Placeholder(index: nat, src: string)

  /** The grid: every loaded image, then every placeholder image. */
  function Render(images: seq<GalleryImage>, defaults: seq<string>): (r: seq<Tile>)
    ensures |r| == |images| + |defaults|
    ensures forall i :: 0 <= i < |images| ==> r[i] == Uploaded(images[i])
    ensures forall i :: 0 <= i < |defaults| ==> r[|images| + i] == Placeholder(i, defaults[i])
  {
    seq(|images|, i requires 0 <= i < |images| => Uploaded(images[i]))
      + seq(|defaults|, i requires 0 <= i < |defaults| => Placeholder(i, defaults[i]))
  }

  /** Placeholders are never paginated: every load leaves the grid's
      placeholder tail as it was and only grows the uploaded part. */
  lemma PlaceholdersUnaffectedByLoading(l: Loader, images: seq<GalleryImage>, db: Health, defaults: seq<string>)
    ensures var l' := LoadMore(l, images, db);
      && Render(l'.images, defaults)[|l'.images|..] == Render(l.images, defaults)[|l.images|..]
      && Render(l.images, defaults)[..|l.images|] <= Render(l'.images, defaults)[..|l'.images|]
  {
    RenderExtends(l.images, LoadMore(l, images, db).images, defaults);
  }

  /** Growing the uploaded images only grows the uploaded part of the
      grid; the placeholder tail stays the same. */
  lemma RenderExtends(a: seq<GalleryImage>, b: seq<GalleryImage>, defaults: seq<string>)
    requires a <= b
    ensures Render(b, defaults)[|b|..] == Render(a, defaults)[|a|..]
    ensures Render(a, defaults)[..|a|] <= Render(b, defaults)[..|b|]
  {
    var ra := Render(a, defaults);
    var rb := Render(b, defaults);
    assert |ra[|a|..]| == |rb[|b|..]|;
    forall i | 0 <= i < |defaults| ensures ra[|a|..][i] == rb[|b|..][i] {
      assert ra[|a| + i] == rb[|b| + i];
    }
    forall i | 0 <= i < |a| ensures ra[..|a|][i] == rb[..|b|][i] {
      assert ra[i] == Uploaded(a[i]) && rb[i] == Uploaded(b[i]);
    }
  }
}

=== FILE: mail.dfy ===
/** The two notification mails sent to the site's administrator: who
    sends them and to whom, the subject line, and the body as a heading,
    a list of labelled paragraphs and (for uploads) the linked picture.
    `Html` renders a body to the markup that is sent. */
module Mail {
  import opened Wrappers
  import Strings

  /** One `<p><strong>title:</strong> value</p>` line. */
  datatype Para = Para(title: string, value: string)

  /** The uploaded picture: a link (target and text) and an image source. */
  datatype Picture = Picture(href: string, text: string, src: string)

  datatype Body = Body(heading: string, paragraphs: seq<Para>, picture: Option<Picture>)

  datatype Message = Message(from: Option<string>, to: Option<string>, subject: string, body: Body)

  /** The environment the transport is configured from: `GMAIL_USER` and
      `ADMIN_EMAIL`, either of which may be unset. */
  datatype Env = Env(gmailUser: Option<string>, adminEmail: Option<string>)

  /** The data an RSVP notification is given. */
  datatype RsvpNotice = RsvpNotice(name: string, email: string, attending: bool, guestCount: int, message: Option<string>)

  /** The data an upload notification is given. */
  datatype UploadNotice = UploadNotice(
    caption: string,
    guestName: Option<string>,
    guestEmail: Option<string>,
    guestPhone: Option<string>,
    imageUrl: string)

  const RsvpHeading := "New RSVP Submission"
  const UploadHeading := "New Photo Upload"
  const UploadSubject := "New Photo Uploaded to Wedding Gallery"

  /** Whether some paragraph carries the title. */
  predicate HasLabel(b: Body, title: string) {
    Labelled(b.paragraphs, title)
  }

  predicate Labelled(ps: seq<Para>, title: string) {
    exists p :: p in ps && p.title == title
  }

  /** A paragraph that is present only when its value is truthy. */
  function Optional(title: string, value: Option<string>): (ps: seq<Para>)
    ensures |ps| <= 1
    ensures |ps| == 1 <==> Truthy(value)
    ensures |ps| == 1 ==> ps[0] == Para(title, value.value)
    ensures forall p :: p in ps ==> p.title == title
  {
    if Truthy(value) then [Para(title, value.value)] else []
  }

  /** `sendRSVPNotification`'s mail. */
  function RsvpMail(env: Env, n: RsvpNotice): (m: Message)
    ensures m.from == env.gmailUser && m.to == env.adminEmail
    ensures m.subject == "New RSVP: " + n.name + " - " + (if n.attending then "Attending" else "Not Attending")
    ensures m.body.heading == RsvpHeading && m.body.picture.None?
    ensures |m.body.paragraphs| >= 4
    ensures m.body.paragraphs[..4] == [
      Para("Name", n.name),
      Para("Email", n.email),
      Para("Attending", if n.attending then "Yes \U{2705}" else "No \U{274C}"),
      Para("Number of Guests", Strings.IntToString(n.guestCount))]
    ensures HasLabel(m.body, "Message") <==> Truthy(n.message)
    ensures Truthy(n.message) ==> m.body.paragraphs[4] == Para("Message", n.message.value)
  {
    var always := [
      Para("Name", n.name),
      Para("Email", n.email),
      Para("Attending", if n.attending then "Yes \U{2705}" else "No \U{274C}"),
      Para("Number of Guests", Strings.IntToString(n.guestCount))];
    var body := Body(RsvpHeading, always + Optional("Message", n.message), None);
    assert forall k :: 0 <= k < 4 ==> body.paragraphs[k].title != "Message";
    Message(env.gmailUser, env.adminEmail,
      "New RSVP: " + n.name + " - " + (if n.attending then "Attending" else "Not Attending"),
      body)
  }

  /** `sendUploadNotification`'s mail. */
  function UploadMail(env: Env, n: UploadNotice): (m: Message)
    ensures m.from == env.gmailUser && m.to == env.adminEmail
    ensures m.subject == UploadSubject
    ensures m.body.heading == UploadHeading
    ensures |m.body.paragraphs| >= 1 && m.body.paragraphs[0] == Para("Caption", n.caption)
    ensures m.body.picture == Some(Picture(n.imageUrl, n.imageUrl, n.imageUrl))
  {
    var ps := [Para("Caption", n.caption)]
      + Optional("Guest Name", n.guestName)
      + Optional("Email", n.guestEmail)
      + Optional("Phone", n.guestPhone);
    Message(env.gmailUser, env.adminEmail, UploadSubject,
      Body(UploadHeading, ps, Some(Picture(n.imageUrl, n.imageUrl, n.imageUrl))))
  }

  /** The fixed pieces of markup the templates are made of. */
  const ParaOpen: string := "<p><strong>"
  const ParaMid: string := ":</strong> "
  const ParaClose: string := "</p>"
  const LinkOpen: string := "<a href=\""
  const LinkMid: string := "\">"
  const LinkClose: string := "</a>"
  const ImgOpen: string := "<img src=\""
  const ImgRest: string := "\" alt=\"Uploaded photo\" style=\"max-width: 100%; border-radius: 8px; margin-top: 10px;\" />"
  const PictureLabel: string := "<p><strong>Image URL:</strong> "
  const Outer: string := "<div style=\"font-family: Arial, sans-serif; max-width: 600px; margin: 0 auto;\">"
  const HeadingOpen: string := "<h2 style=\"color: #6b21a8;\">"
  const HeadingClose: string := "</h2>"
  const Panel: string := "<div style=\"background-color: #f3f4f6; padding: 20px; border-radius: 8px;\">"
  const Closing: string := "</div></div>"

  function ParaHtml(p: Para): string {
    ParaOpen + p.title + ParaMid + p.value + ParaClose
  }

  function LinkHtml(href: string, text: string): string {
    LinkOpen + href + LinkMid + text + LinkClose
  }

  function ImgHtml(src: string): string {
    ImgOpen + src + ImgRest
  }

  /** The closing of the image-URL paragraph and the inline image. */
  function ImgTail(src: string): string {
    ParaClose + ImgHtml(src)
  }

  function PictureHtml(pic: Picture): string {
    PictureLabel + LinkHtml(pic.href, pic.text) + ImgTail(pic.src)
  }

  /** The texts one after the other. */
  function Concat(ss: seq<string>): string
    decreases |ss|
  {
    if |ss| == 0 then "" else ss[0] + Concat(ss[1..])
  }

  /** Each paragraph's markup, in order. */
  function ParaPieces(ps: seq<Para>): (ss: seq<string>)
    ensures |ss| == |ps|
    ensures forall k :: 0 <= k < |ps| ==> ss[k] == ParaHtml(ps[k])
  {
    seq(|ps|, k requires 0 <= k < |ps| => ParaHtml(ps[k]))
  }

  function ParasHtml(ps: seq<Para>): string {
    Concat(ParaPieces(ps))
  }

  /** The wrapper, heading and panel opening. */
  function Header(heading: string): string {
    Outer + HeadingOpen + heading + HeadingClose + Panel
  }

  /** The picture, if any, and the closing tags. */
  function Footer(picture: Option<Picture>): string {
    match picture
    case Some(pic) => PictureHtml(pic) + Closing
    case None => Closing
  }

  /** The markup of a mail body. */
  function Html(b: Body): string {
    Header(b.heading) + ParasHtml(b.paragraphs) + Footer(b.picture)
  }

  /** `s` begins with `prefix`, compared one character at a time. */
  predicate StartsWith(s: string, prefix: string)
    decreases |prefix|
  {
    |prefix| == 0 || (|s| > 0 && s[0] == prefix[0] && StartsWith(s[1..], prefix[1..]))
  }

  /** `sub` occurs somewhere in `s`: one of its suffixes starts with it. */
  predicate Occurs(sub: string, s: string)
    decreases |s|
  {
    StartsWith(s, sub) || (|s| > 0 && Occurs(sub, s[1..]))
  }

  /** A text starts with itself, whatever follows. */
  lemma {:induction false} StartsWithSelf(sub: string, post: string)
    ensures StartsWith(sub + post, sub)
    decreases |sub|
  {
    if |sub| > 0 {
      StartsWithSelf(sub[1..], post);
      assert (sub + post)[1..] == sub[1..] + post;
    }
  }

  /** A text starting with `sub` still does with more appended. */
  lemma {:induction false} StartsWithAppend(s: string, sub: string, post: string)
    requires StartsWith(s, sub)
    ensures StartsWith(s + post, sub)
    decreases |sub|
  {
    if |sub| > 0 {
      StartsWithAppend(s[1..], sub[1..], post);
      assert (s + post)[1..] == s[1..] + post;
    }
  }

  /** Anything occurs in a text made around it. */
  lemma {:induction false} OccursIn(pre: string, sub: string, post: string)
    ensures Occurs(sub, pre + sub + post)
    decreases |pre|
  {
    if |pre| == 0 {
      assert pre + sub + post == sub + post;
      StartsWithSelf(sub, post);
    } else {
      OccursIn(pre[1..], sub, post);
      assert (pre + sub + post)[1..] == pre[1..] + sub + post;
    }
  }

  /** An occurrence survives appending text. */
  lemma {:induction false} OccursBefore(sub: string, s: string, post: string)
    requires Occurs(sub, s)
    ensures Occurs(sub, s + post)
    decreases |s|
  {
    if StartsWith(s, sub) {
      StartsWithAppend(s, sub, post);
    } else {
      OccursBefore(sub, s[1..], post);
      assert (s + post)[1..] == s[1..] + post;
    }
  }

  /** An occurrence survives prepending text. */
  lemma {:induction false} OccursAfter(sub: string, s: string, pre: string)
    requires Occurs(sub, s)
    ensures Occurs(sub, pre + s)
    decreases |pre|
  {
    if |pre| == 0 {
      assert pre + s == s;
    } else {
      OccursAfter(sub, s, pre[1..]);
      assert (pre + s)[1..] == pre[1..] + s;
    }
  }

  /** An occurrence survives embedding in a larger text. */
  lemma OccursWithin(sub: string, s: string, pre: string, post: string)
    requires Occurs(sub, s)
    ensures Occurs(sub, pre + s + post)
  {
    OccursBefore(sub, s, post);
    OccursAfter(sub, s + post, pre);
    assert pre + (s + post) == pre + s + post;
  }

  /** Concatenating joined lists is joining their concatenations. */
  lemma {:induction false} ConcatAppend(a: seq<string>, c: seq<string>)
    ensures Concat(a + c) == Concat(a) + Concat(c)
    decreases |a|
  {
    if |a| == 0 {
      assert a + c == c;
    } else {
      ConcatAppend(a[1..], c);
      assert (a + c)[1..] == a[1..] + c;
    }
  }

  /** A concatenation splits around its `k`-th text. */
  lemma ConcatSplit(ss: seq<string>, k: nat)
    requires k < |ss|
    ensures Concat(ss) == Concat(ss[..k]) + ss[k] + Concat(ss[k + 1..])
  {
    var rest := ss[k..];
    assert ss == ss[..k] + rest;
    ConcatAppend(ss[..k], rest);
    assert rest[1..] == ss[k + 1..];
    assert Concat(rest) == ss[k] + Concat(ss[k + 1..]);
    AppendAssoc(Concat(ss[..k]), ss[k], Concat(ss[k + 1..]));
  }

  /** Concatenation of texts is associative. */
  lemma AppendAssoc(a: string, x: string, c: string)
    ensures a + (x + c) == a + x + c
  {
  }

  /** Every paragraph of a body appears in its markup. */
  lemma ParagraphRendered(b: Body, k: nat)
    requires k < |b.paragraphs|
    ensures Occurs(ParaHtml(b.paragraphs[k]), Html(b))
  {
    var ps := b.paragraphs;
    var ss := ParaPieces(ps);
    ConcatSplit(ss, k);
    OccursIn(Concat(ss[..k]), ss[k], Concat(ss[k + 1..]));
    OccursWithin(ParaHtml(ps[k]), ParasHtml(ps), Header(b.heading), Footer(b.picture));
  }

  /** The RSVP mail's markup always shows the name, email, attendance and
      guest count, and the message whenever the mail carries one. */
  lemma RsvpMailShowsFields(env: Env, n: RsvpNotice)
    ensures var h := Html(RsvpMail(env, n).body);
      && Occurs(ParaHtml(Para("Name", n.name)), h)
      && Occurs(ParaHtml(Para("Email", n.email)), h)
      && Occurs(ParaHtml(Para("Attending", if n.attending then "Yes \U{2705}" else "No \U{274C}")), h)
      && Occurs(ParaHtml(Para("Number of Guests", Strings.IntToString(n.guestCount))), h)
      && (Truthy(n.message) ==> Occurs(ParaHtml(Para("Message", n.message.value)), h))
  {
    var b := RsvpMail(env, n).body;
    assert b.paragraphs[0] == b.paragraphs[..4][0];
    assert b.paragraphs[1] == b.paragraphs[..4][1];
    assert b.paragraphs[2] == b.paragraphs[..4][2];
    assert b.paragraphs[3] == b.paragraphs[..4][3];
    ParagraphRendered(b, 0);
    ParagraphRendered(b, 1);
    ParagraphRendered(b, 2);
    ParagraphRendered(b, 3);
    if Truthy(n.message) {
      ParagraphRendered(b, 4);
    }
  }

  /** The upload mail's markup shows the caption, and uses the image URL
      as link target, link text and inline image source. */
  lemma UploadMailShowsPicture(env: Env, n: UploadNotice)
    ensures var h := Html(UploadMail(env, n).body);
      && Occurs(ParaHtml(Para("Caption", n.caption)), h)
      && Occurs(LinkHtml(n.imageUrl, n.imageUrl), h)
      && Occurs(ImgHtml(n.imageUrl), h)
  {
    var b := UploadMail(env, n).body;
    ParagraphRendered(b, 0);
    var u := n.imageUrl;
    var pic := Picture(u, u, u);
    var head := Header(b.heading) + ParasHtml(b.paragraphs);
    assert Html(b) == head + PictureHtml(pic) + Closing;
    OccursIn(PictureLabel, LinkHtml(u, u), ImgTail(u));
    OccursWithin(LinkHtml(u, u), PictureHtml(pic), head, Closing);
    OccursIn(ParaClose, ImgHtml(u), "");
    assert ParaClose + ImgHtml(u) + "" == ImgTail(u);
    OccursWithin(ImgHtml(u), ImgTail(u), PictureLabel + LinkHtml(u, u), "");
    assert PictureLabel + LinkHtml(u, u) + ImgTail(u) + "" == PictureHtml(pic);
    OccursWithin(ImgHtml(u), PictureHtml(pic), head, Closing);
  }

  /** Each optional guest field of the upload mail gets a paragraph
      exactly when it is truthy; the caption paragraph is always first. */
  lemma UploadMailOptionalFields(env: Env, n: UploadNotice)
    ensures var b := UploadMail(env, n).body;
      && (HasLabel(b, "Guest Name") <==> Truthy(n.guestName))
      && (HasLabel(b, "Email") <==> Truthy(n.guestEmail))
      && (HasLabel(b, "Phone") <==> Truthy(n.guestPhone))
      && !HasLabel(b, "Message")
  {
    var g := Optional("Guest Name", n.guestName);
    var e := Optional("Email", n.guestEmail);
    var ph := Optional("Phone", n.guestPhone);
    var c := [Para("Caption", n.caption)];
    var ps := UploadMail(env, n).body.paragraphs;
    assert ps == c + g + e + ph;
    assert Labelled(ps, "Guest Name") <==> Truthy(n.guestName) by {
      UploadTitlesDistinct();
      OptionalLabel(c, "Guest Name", n.guestName, e + ph);
      assert c + g + (e + ph) == ps;
    }
    assert Labelled(ps, "Email") <==> Truthy(n.guestEmail) by {
      UploadTitlesDistinct();
      OptionalLabel(c + g, "Email", n.guestEmail, ph);
    }
    assert Labelled(ps, "Phone") <==> Truthy(n.guestPhone) by {
      UploadTitlesDistinct();
      OptionalLabel(c + g + e, "Phone", n.guestPhone, []);
      assert c + g + e + ph + [] == ps;
    }
    assert !Labelled(ps, "Message") by {
      UploadTitlesDistinct();
    }
  }

  /** The upload mail carries no paragraph beyond the notice's fields:
      each is the caption or one of the guest's name, email and phone. */
  lemma UploadMailOnlyNoticeFields(env: Env, n: UploadNotice)
    ensures var ps := UploadMail(env, n).body.paragraphs;
      forall k :: 0 <= k < |ps| ==>
        ps[k] in [
          Para("Caption", n.caption), Para("Guest Name", n.guestName.GetOr("")),
          Para("Email", n.guestEmail.GetOr("")), Para("Phone", n.guestPhone.GetOr(""))]
  {
  }

  /** The titles of the upload mail differ from each other and from the
      RSVP mail's message title. */
  lemma UploadTitlesDistinct()
    ensures "Caption" != "Guest Name" && "Caption" != "Email" && "Caption" != "Phone" && "Caption" != "Message"
    ensures "Guest Name" != "Email" && "Guest Name" != "Phone" && "Guest Name" != "Message"
    ensures "Email" != "Phone" && "Email" != "Message" && "Phone" != "Message"
  {
    assert "Email"[0] != "Phone"[0];
  }

  /** An optional paragraph is the only one that can carry its title. */
  lemma OptionalLabel(pre: seq<Para>, title: string, value: Option<string>, post: seq<Para>)
    requires forall p :: p in pre ==> p.title != title
    requires forall p :: p in post ==> p.title != title
    ensures Labelled(pre + Optional(title, value) + post, title) <==> Truthy(value)
  {
    var ps := pre + Optional(title, value) + post;
    if Truthy(value) {
      assert Para(title, value.value) in ps;
    }
  }
}

=== FILE: moderation.dfy ===
/** Photo moderation, as both admin photo views implement it: each row
    offers exactly one of approve or unapprove (sending the negated flag)
    plus delete; a delete needs the operator's confirmation; the list is
    fetched again only after an OK answer; and a visitor without a
    session is sent to the login page. */
module Moderation {
  import opened Wrappers
  import opened Records
  import PhotosApi
  import UploadApi

  /** A record as the moderation views see it, with its approval flag. */
  datatype AdminImage = AdminImage(image: GalleryImage, approved: bool)

  datatype Action = Approve | Unapprove | Delete

  /** The request an action sends. */
  datatype Request = Patch(id: string, approved: bool) | Remove(id: string)

  /** The buttons of a row: the approval toggle that applies, then delete. */
  function RowActions(row: AdminImage): (acts: seq<Action>)
    ensures |acts| == 2 && acts[1] == Delete
    ensures Approve in acts <==> !row.approved
    ensures Unapprove in acts <==> row.approved
  {
    [if row.approved then Unapprove else Approve, Delete]
  }

  /** What clicking an action on a row sends. */
  function ActionRequest(row: AdminImage, a: Action): (r: Request)
    ensures a == Approve ==> r == Patch(row.image.id, true)
    ensures a == Unapprove ==> r == Patch(row.image.id, false)
    ensures a == Delete ==> r == Remove(row.image.id)
  {
    match a
    case Approve => Patch(row.image.id, true)
    case Unapprove => Patch(row.image.id, false)
    case Delete => Remove(row.image.id)
  }

  /** The toggle a row offers always flips the row's flag, and applying
      the change twice restores it. */
  lemma ToggleNegates(row: AdminImage)
    ensures ActionRequest(row, RowActions(row)[0]) == Patch(row.image.id, !row.approved)
    ensures var flipped := row.(approved := !row.approved);
      ActionRequest(flipped, RowActions(flipped)[0]) == Patch(row.image.id, row.approved)
  {
  }

  /** The status badge. */
  function Badge(approved: bool): (s: string)
    ensures s == "Approved" <==> approved
    ensures s == "Pending" <==> !approved
  {
    if approved then "Approved" else "Pending"
  }

  /** The guest column's first line: the guest's name, or "Anonymous". */
  function GuestLabel(g: GalleryImage): (s: string)
    ensures Truthy(g.guestName) ==> s == g.guestName.value
    ensures !Truthy(g.guestName) ==> s == "Anonymous"
    ensures s != ""
  {
    if Truthy(g.guestName) then g.guestName.value else "Anonymous"
  }

  /** The guest column shows the email line only for a truthy email. */
  predicate EmailShown(g: GalleryImage) {
    Truthy(g.guestEmail)
  }

  /** `handleApprove(id, approved)`: the request is always sent; the list
      is fetched again only after an OK answer. */
  function HandleApprove(id: string, approved: bool, resp: Response): (r: (Request, bool))
    ensures r.0 == Patch(id, approved)
    ensures r.1 <==> resp == OkResponse
  {
    (Patch(id, approved), resp == OkResponse)
  }

  /** `handleDelete(id)`: without confirmation nothing is sent; otherwise
      the delete is sent and the list is fetched again only after an OK
      answer. */
  function HandleDelete(id: string, confirmed: bool, resp: Response): (r: (Option<Request>, bool))
    ensures r.0.Some? <==> confirmed
    ensures confirmed ==> r.0 == Some(Remove(id))
    ensures r.1 <==> confirmed && resp == OkResponse
  {
    if !confirmed then (None, false) else (Some(Remove(id)), resp == OkResponse)
  }

  /** The list the views hold, and whether the first fetch is pending. */
  datatype Panel<T> = Panel(images: seq<T>, isLoading: bool)

  /** `fetchImages`: a successful answer replaces the list; a failed or
      thrown one keeps it; loading always ends. */
  function FetchImages<T>(p: Panel<T>, fetched: Option<seq<T>>): (r: Panel<T>)
    ensures !r.isLoading
    ensures fetched.Some? ==> r.images == fetched.value
    ensures fetched.None? ==> r.images == p.images
  {
    Panel(if fetched.Some? then fetched.value else p.images, false)
  }

  /** The session guard of the admin pages. */
  function ShouldRedirect(isPending: bool, hasSession: bool): (go: bool)
    ensures go <==> !isPending && !hasSession
  {
    !isPending && !hasSession
  }

  /** What the page renders: the loading line, or the table of rows with
      the "No photos uploaded yet" notice under an empty one. */
  datatype View<T> = Loading | Listing(rows: seq<T>, emptyNotice: bool)

  /** The page shows the loading line while the session or the first
      fetch is pending; the embedded manager passes `false` for the
      session, as it has no guard. */
  function PageView<T>(isPending: bool, p: Panel<T>): (v: View<T>)
    ensures v.Loading? <==> isPending || p.isLoading
    ensures v.Listing? ==> v.rows == p.images && (v.emptyNotice <==> |p.images| == 0)
  {
    if isPending || p.isLoading then Loading else Listing(p.images, |p.images| == 0)
  }

  /** The guard and the rendering fit together: while the session is
      pending the page neither redirects nor lists, and whenever the table
      is rendered for a visitor without a session the guard sends them
      to the login page. */
  lemma GuardCoversListing<T>(isPending: bool, hasSession: bool, p: Panel<T>)
    ensures isPending ==> !ShouldRedirect(isPending, hasSession) && PageView(isPending, p).Loading?
    ensures PageView(isPending, p).Listing? && !hasSession ==> ShouldRedirect(isPending, hasSession)
    ensures hasSession ==> !ShouldRedirect(isPending, hasSession)
  {
  }

  /** The first fetch decides the first table: the fetched rows, or, when
      it fails or throws, an empty table with the "No photos uploaded
      yet" notice. */
  lemma FirstFetchShows<T>(fetched: Option<seq<T>>)
    ensures var v := PageView(false, FetchImages(Panel([], true), fetched));
      && v.Listing?
      && (fetched.Some? ==> v.rows == fetched.value)
      && (fetched.None? ==> v == Listing([], true))
  {
  }

  /** The views fetch `/api/photos` without a query, so they list the
      newest records up to the route's default page size. */
  function AdminListing(images: seq<GalleryImage>, db: Health): (r: Option<seq<GalleryImage>>)
    ensures r.Some? <==> db.Up?
    ensures r.Some? ==> |r.value| == PhotosApi.Min(PhotosApi.DefaultTake, |images|)
    ensures r.Some? ==> forall x :: x in r.value ==> x in images
    ensures r.Some? ==> r.value == NewestImages(images)[..PhotosApi.Min(PhotosApi.DefaultTake, |images|)]
  {
    var reply := PhotosApi.Get(images, None, None, db);
    assert PhotosApi.Get(images, None, None, Up).body.data
      == PhotosApi.Window(NewestImages(images), 0, PhotosApi.DefaultTake);
    if reply.body.Success? then Some(reply.body.data) else None
  }

  /** Clicking the toggle a row offers goes through `handleApprove` with
      the button's flag: it sends the row's action request, which flips
      the flag and so the badge, and refetches exactly after an OK
      answer. */
  lemma ToggleHandled(row: AdminImage, resp: Response)
    ensures var a := RowActions(row)[0];
      var (sent, refetch) := HandleApprove(row.image.id, a == Approve, resp);
      && sent == ActionRequest(row, a)
      && sent.approved == !row.approved
      && Badge(sent.approved) != Badge(row.approved)
      && (refetch <==> resp == OkResponse)
  {
    ToggleNegates(row);
  }

  /** A stored upload's guest column: the name the guest typed, or
      "Anonymous" when they left it empty, with the email line exactly
      when they gave one. */
  lemma UploaderShown(images: seq<GalleryImage>, req: UploadApi.UploadRequest, stamp: UploadApi.Stamp, mail: Health)
    requires UploadApi.CanCreate(images, stamp, Up)
    ensures var rec := UploadApi.Post(images, req, stamp, Up, mail).reply.body.data;
      && GuestLabel(rec) == (if Truthy(req.guestName) then req.guestName.value else "Anonymous")
      && (EmailShown(rec) <==> Truthy(req.guestEmail))
  {
  }

  /** A confirmed delete of a stored record, against a healthy database,
      refetches the list, and the refetched list no longer shows that
      record; an unconfirmed one sends nothing and changes nothing. */
  lemma ConfirmedDeleteDisappears(images: seq<GalleryImage>, k: nat, confirmed: bool)
    requires UniqueImageIds(images)
    requires k < |images|
    requires images[k].id != ""
    ensures var id := images[k].id;
      var (after, reply) := PhotosApi.Delete(images, Some(id), Up);
      var (sent, refetch) := HandleDelete(id, confirmed, Classify(reply));
      && (confirmed ==> refetch && sent == Some(Remove(id)))
      && (confirmed ==> forall x :: x in AdminListing(after, Up).value ==> x.id != id)
      && (!confirmed ==> sent.None? && !refetch)
  {
    var id := images[k].id;
    var (after, reply) := PhotosApi.Delete(images, Some(id), Up);
    assert HasImage(images, id);
    assert !HasImage(after, id);
    forall x | x in AdminListing(after, Up).value ensures x.id != id {
      var j :| 0 <= j < |after| && after[j] == x;
    }
  }

  /** A confirmed delete of a stored record followed by the refetch it
      triggers: with a healthy database the refreshed table no longer
      shows the record; when the refetch fails the table stays as it was;
      an unconfirmed delete leaves the panel untouched. */
  lemma DeleteThenRefresh(p: Panel<GalleryImage>, images: seq<GalleryImage>, k: nat, confirmed: bool, db: Health)
    requires UniqueImageIds(images)
    requires k < |images|
    requires images[k].id != ""
    ensures var id := images[k].id;
      var (after, reply) := PhotosApi.Delete(images, Some(id), Up);
      var (_, refetch) := HandleDelete(id, confirmed, Classify(reply));
      var p' := if refetch then FetchImages(p, AdminListing(after, db)) else p;
      && (confirmed && db.Up? ==> !p'.isLoading && forall x :: x in p'.images ==> x.id != id)
      && (confirmed && db.Down? ==> p'.images == p.images && !p'.isLoading)
      && (!confirmed ==> p' == p)
  {
    ConfirmedDeleteDisappears(images, k, confirmed);
  }
}

=== FILE: ordering.dfy ===
/** Ordering of stored records by a timestamp, most recent first, as the
    database's `orderBy: { ... : 'desc' }` returns them. The database
    promises no order among equal timestamps; the model breaks such ties
    by insertion order, and `SortedUnique` shows that without ties every
    newest-first order of the same records is this one. */
module Ordering {

  /** Every earlier element has a timestamp at least as large. */
  predicate SortedDesc<T>(s: seq<T>, key: T -> int) {
    forall i, j :: 0 <= i < j < |s| ==> key(s[i]) >= key(s[j])
  }

  /** No two positions carry the same identity. */
  predicate DistinctBy<T, K(==)>(s: seq<T>, ident: T -> K) {
    forall i, j :: 0 <= i < j < |s| ==> ident(s[i]) != ident(s[j])
  }

  /** Inserts `x` into a descending sequence ahead of every element that
      is not newer than it. */
  function Insert<T>(x: T, t: seq<T>, key: T -> int): (r: seq<T>)
    ensures |r| == |t| + 1
    ensures multiset(r) == multiset(t) + multiset{x}
    decreases |t|
  {
    if |t| == 0 || key(t[0]) <= key(x) then [x] + t
    else
      assert t == [t[0]] + t[1..];
      [t[0]] + Insert(x, t[1..], key)
  }

  lemma {:induction false} InsertSorted<T>(x: T, t: seq<T>, key: T -> int)
    requires SortedDesc(t, key)
    ensures SortedDesc(Insert(x, t, key), key)
    decreases |t|
  {
    if |t| > 0 && key(t[0]) > key(x) {
      var t' := t[1..];
      InsertSorted(x, t', key);
      var r' := Insert(x, t', key);
      forall y | y in r'
        ensures key(t[0]) >= key(y)
      {
        assert y in multiset(r');
        if y != x {
          assert y in multiset(t');
          var k :| 0 <= k < |t'| && t'[k] == y;
          assert t[k + 1] == y;
        }
      }
    }
  }

  lemma {:induction false} InsertDistinct<T, K>(x: T, t: seq<T>, key: T -> int, ident: T -> K)
    requires DistinctBy(t, ident)
    requires forall y :: y in t ==> ident(y) != ident(x)
    ensures DistinctBy(Insert(x, t, key), ident)
    decreases |t|
  {
    if |t| > 0 && key(t[0]) > key(x) {
      var t' := t[1..];
      forall y | y in t' ensures ident(y) != ident(x) {
        assert y in t;
      }
      assert DistinctBy(t', ident) by {
        forall i, j | 0 <= i < j < |t'| ensures ident(t'[i]) != ident(t'[j]) {
          assert t'[i] == t[i + 1] && t'[j] == t[j + 1];
        }
      }
      InsertDistinct(x, t', key, ident);
      var r' := Insert(x, t', key);
      forall y | y in r'
        ensures ident(t[0]) != ident(y)
      {
        assert y in multiset(r');
        if y != x {
          assert y in multiset(t');
          var k :| 0 <= k < |t'| && t'[k] == y;
          assert t[k + 1] == y;
        } else {
          assert t[0] in t;
        }
      }
    }
  }

  /** The records ordered newest first: a permutation of the input. */
  function SortDesc<T>(s: seq<T>, key: T -> int): (r: seq<T>)
    ensures |r| == |s|
    ensures multiset(r) == multiset(s)
    decreases |s|
  {
    if |s| == 0 then []
    else
      assert s == [s[0]] + s[1..];
      Insert(s[0], SortDesc(s[1..], key), key)
  }

  /** The sorted sequence is ordered newest first. */
  lemma {:induction false} SortDescSorted<T>(s: seq<T>, key: T -> int)
    ensures SortedDesc(SortDesc(s, key), key)
    decreases |s|
  {
    if |s| > 0 {
      SortDescSorted(s[1..], key);
      InsertSorted(s[0], SortDesc(s[1..], key), key);
    }
  }

  /** Sorting keeps identities distinct. */
  lemma {:induction false} SortDescDistinct<T, K>(s: seq<T>, key: T -> int, ident: T -> K)
    requires DistinctBy(s, ident)
    ensures DistinctBy(SortDesc(s, key), ident)
    decreases |s|
  {
    if |s| > 0 {
      var s' := s[1..];
      assert DistinctBy(s', ident) by {
        forall i, j | 0 <= i < j < |s'| ensures ident(s'[i]) != ident(s'[j]) {
          assert s'[i] == s[i + 1] && s'[j] == s[j + 1];
        }
      }
      SortDescDistinct(s', key, ident);
      var t := SortDesc(s', key);
      forall y | y in t ensures ident(y) != ident(s[0]) {
        assert y in multiset(t);
        assert y in multiset(s');
        var k :| 0 <= k < |s'| && s'[k] == y;
        assert s[k + 1] == y;
      }
      InsertDistinct(s[0], t, key, ident);
    }
  }

  /** A prefix of a sequence with distinct identities has them too. */
  lemma PrefixDistinct<T, K>(s: seq<T>, n: nat, ident: T -> K)
    requires DistinctBy(s, ident)
    requires n <= |s|
    ensures DistinctBy(s[..n], ident)
  {
  }

  /** Without two equal timestamps, a multiset of records has only one
      newest-first order. */
  lemma {:induction false} SortedUnique<T>(a: seq<T>, b: seq<T>, key: T -> int)
    requires multiset(a) == multiset(b)
    requires SortedDesc(a, key) && SortedDesc(b, key)
    requires DistinctBy(a, key)
    ensures a == b
    decreases |a|
  {
    assert |a| == |multiset(a)| == |multiset(b)| == |b|;
    if |a| > 0 {
      SameNewest(a, b, key);
      SameRest(a, b);
      TailOrdered(a, key);
      TailOrdered(b, key);
      SortedUnique(a[1..], b[1..], key);
      assert a == [a[0]] + a[1..] && b == [b[0]] + b[1..];
    }
  }

  /** Two newest-first orders of the same records, without ties, start
      with the same record. */
  lemma SameNewest<T>(a: seq<T>, b: seq<T>, key: T -> int)
    requires multiset(a) == multiset(b)
    requires SortedDesc(a, key) && SortedDesc(b, key)
    requires DistinctBy(a, key)
    requires |a| > 0
    ensures |b| > 0 && a[0] == b[0]
  {
    assert a[0] in multiset(b);
    var j :| 0 <= j < |b| && b[j] == a[0];
    assert b[0] in multiset(a);
    var i :| 0 <= i < |a| && a[i] == b[0];
    assert key(a[0]) >= key(a[i]) == key(b[0]) >= key(b[j]);
  }

  /** Removing the same first record from equal multisets leaves equal
      multisets. */
  lemma SameRest<T>(a: seq<T>, b: seq<T>)
    requires multiset(a) == multiset(b)
    requires |a| > 0 && |b| > 0 && a[0] == b[0]
    ensures multiset(a[1..]) == multiset(b[1..])
  {
    assert a == [a[0]] + a[1..] && b == [b[0]] + b[1..];
    assert multiset(a[1..]) == multiset(a) - multiset{a[0]};
    assert multiset(b[1..]) == multiset(b) - multiset{a[0]};
  }

  /** The tail of an order keeps it, and keeps its timestamps distinct. */
  lemma TailOrdered<T>(a: seq<T>, key: T -> int)
    requires |a| > 0
    ensures SortedDesc(a, key) ==> SortedDesc(a[1..], key)
    ensures DistinctBy(a, key) ==> DistinctBy(a[1..], key)
  {
    var t := a[1..];
    if SortedDesc(a, key) {
      forall p, q | 0 <= p < q < |t| ensures key(t[p]) >= key(t[q]) {
        assert t[p] == a[p + 1] && t[q] == a[q + 1];
      }
    }
    if DistinctBy(a, key) {
      forall p, q | 0 <= p < q < |t| ensures key(t[p]) != key(t[q]) {
        assert t[p] == a[p + 1] && t[q] == a[q + 1];
      }
    }
  }
}

=== FILE: photos_api.dfy ===
/** The photos route: `GET` pages through the gallery records newest
    first, `DELETE` removes one record by id. The database is the
    sequence of stored images (in insertion order) plus its health. */
module PhotosApi {
  import opened Wrappers
  import opened Records
  import Ordering

  const DefaultSkip: nat := 0
  const DefaultTake: nat := 12

  function Min(a: nat, b: nat): nat {
    if a <= b then a else b
  }

  /** The records a `skip`/`take` query selects from `s`. */
  function Window<T>(s: seq<T>, skip: nat, take: nat): (w: seq<T>)
    ensures |w| == if skip >= |s| then 0 else Min(take, |s| - skip)
    ensures forall i :: 0 <= i < |w| ==> w[i] == s[skip + i]
  {
    s[Min(skip, |s|)..Min(skip + take, |s|)]
  }

  /** `GET /api/photos?skip=&take=`: a missing `skip` is 0 and a missing
      `take` is 12; a database failure is a 500. */
  function Get(images: seq<GalleryImage>, skip: Option<nat>, take: Option<nat>, db: Health)
    : (r: Reply<seq<GalleryImage>>)
    ensures db.Down? <==> r.status == 500
    ensures db.Down? ==> r.body == Failure("Failed to fetch images")
    ensures db.Up? ==> r.status == 200 && r.body.Success?
    ensures db.Up? ==>
      var s := skip.GetOr(DefaultSkip);
      var t := take.GetOr(DefaultTake);
      && |r.body.data| == (if s >= |images| then 0 else Min(t, |images| - s))
      && (forall i :: 0 <= i < |r.body.data| ==> r.body.data[i] == NewestImages(images)[s + i])
      && Ordering.SortedDesc(r.body.data, UploadedAt)
      && (forall x :: x in r.body.data ==> x in images)
  {
    match db
    case Down(_) => Reply(500, Failure("Failed to fetch images"))
    case Up =>
      var all := NewestImages(images);
      var page := Window(all, skip.GetOr(DefaultSkip), take.GetOr(DefaultTake));
      assert forall x :: x in page ==> x in multiset(all);
      Reply(200, Success(page))
  }

  /** The stored images without the ones carrying `id`, in order. */
  function RemoveId(images: seq<GalleryImage>, id: string): (r: seq<GalleryImage>)
    ensures |r| <= |images|
    decreases |images|
  {
    if |images| == 0 then []
    else
      var rest := RemoveId(images[1..], id);
      if images[0].id == id then rest else [images[0]] + rest
  }

  /** A record survives the removal exactly when it was stored and
      carries another id. */
  lemma {:induction false} RemoveIdMembers(images: seq<GalleryImage>, id: string)
    ensures forall x :: x in RemoveId(images, id) <==> x in images && x.id != id
    decreases |images|
  {
    if |images| > 0 {
      RemoveIdMembers(images[1..], id);
      assert forall x :: x in images <==> x == images[0] || x in images[1..];
    }
  }

  lemma {:induction false} RemoveIdAbsent(images: seq<GalleryImage>, id: string)
    requires !HasImage(images, id)
    ensures RemoveId(images, id) == images
    decreases |images|
  {
    if |images| > 0 {
      assert images[0].id != id;
      RemoveIdAbsent(images[1..], id);
      assert [images[0]] + images[1..] == images;
    }
  }

  lemma {:induction false} RemoveIdSplit(a: seq<GalleryImage>, b: seq<GalleryImage>, id: string)
    ensures RemoveId(a + b, id) == RemoveId(a, id) + RemoveId(b, id)
    decreases |a|
  {
    if |a| > 0 {
      assert (a + b)[1..] == a[1..] + b;
      RemoveIdSplit(a[1..], b, id);
    } else {
      assert a + b == b;
    }
  }

  /** With unique ids, no entry other than `k` carries the id of `k`. */
  lemma UniqueIdsElsewhere(images: seq<GalleryImage>, k: nat)
    requires UniqueImageIds(images)
    requires k < |images|
    ensures !HasImage(images[..k], images[k].id)
    ensures !HasImage(images[k + 1..], images[k].id)
  {
    var id := images[k].id;
    forall i | 0 <= i < k ensures images[..k][i].id != id {
      assert ImageId(images[i]) != ImageId(images[k]);
    }
    var b := images[k + 1..];
    forall j | 0 <= j < |b| ensures b[j].id != id {
      assert b[j] == images[k + 1 + j];
      assert ImageId(images[k]) != ImageId(images[k + 1 + j]);
    }
  }

  /** With unique ids, removing the id of entry `k` removes exactly that
      entry and keeps every other one in its place in the order. */
  lemma RemoveIdExactlyOne(images: seq<GalleryImage>, k: nat)
    requires UniqueImageIds(images)
    requires k < |images|
    ensures RemoveId(images, images[k].id) == images[..k] + images[k + 1..]
  {
    var a, x, b := images[..k], images[k], images[k + 1..];
    UniqueIdsElsewhere(images, k);
    assert images == a + [x] + b;
    RemoveIdOnly(a, x, b);
  }

  /** Removing the id of `x` from `a + [x] + b`, when neither `a` nor `b`
      carries it, leaves `a + b`. */
  lemma RemoveIdOnly(a: seq<GalleryImage>, x: GalleryImage, b: seq<GalleryImage>)
    requires !HasImage(a, x.id) && !HasImage(b, x.id)
    ensures RemoveId(a + [x] + b, x.id) == a + b
  {
    var id := x.id;
    RemoveIdSplit(a, [x] + b, id);
    assert a + [x] + b == a + ([x] + b);
    RemoveIdAbsent(a, id);
    RemoveIdAbsent(b, id);
    assert ([x] + b)[1..] == b;
  }

  /** Removing a stored id shortens the store. */
  lemma {:induction false} RemoveIdShrinks(images: seq<GalleryImage>, id: string)
    requires HasImage(images, id)
    ensures |RemoveId(images, id)| < |images|
    decreases |images|
  {
    if images[0].id != id {
      var k :| 0 <= k < |images| && images[k].id == id;
      assert images[1..][k - 1].id == id;
      RemoveIdShrinks(images[1..], id);
    }
  }

  /** `DELETE /api/photos?id=`: a missing or empty id is a 400 and any
      store failure, including an id that is not stored, is a 500; in
      both cases the store is untouched. */
  function Delete(images: seq<GalleryImage>, id: Option<string>, db: Health)
    : (r: (seq<GalleryImage>, Reply<()>))
    ensures !Truthy(id) ==> r.1 == Reply(400, Failure("ID required"))
    ensures Truthy(id) && (db.Down? || !HasImage(images, id.value)) ==>
      r.1 == Reply(500, Failure("Failed to delete image"))
    ensures r.1.status == 200 <==> Truthy(id) && db.Up? && HasImage(images, id.value)
    ensures r.1.status != 200 ==> r.0 == images
    ensures r.1.status == 200 ==>
      && !HasImage(r.0, id.value)
      && |r.0| < |images|
      && (forall x :: x in images && x.id != id.value ==> x in r.0)
  {
    if !Truthy(id) then (images, Reply(400, Failure("ID required")))
    else if db.Down? || !HasImage(images, id.value) then
      (images, Reply(500, Failure("Failed to delete image")))
    else
      var rest := RemoveId(images, id.value);
      RemoveIdShrinks(images, id.value);
      RemoveIdMembers(images, id.value);
      (rest, Reply(200, Success(())))
  }

  /** Deleting a stored id with a healthy database removes exactly that
      record and leaves every other record in order. */
  lemma DeleteRemovesExactlyOne(images: seq<GalleryImage>, k: nat)
    requires UniqueImageIds(images)
    requires k < |images|
    requires images[k].id != ""
    ensures var r := Delete(images, Some(images[k].id), Up);
      r.1 == Reply(200, Success(())) && r.0 == images[..k] + images[k + 1..]
  {
    RemoveIdExactlyOne(images, k);
  }
}

=== FILE: records.dfy ===
/** The two persisted record types (gallery images and RSVPs) and the
    accounts the auth provider keeps. Timestamps are milliseconds since
    the epoch; identities are the database's opaque string ids. */
module Records {
  import opened Wrappers
  import Ordering

  /** A guest photo: where it is hosted, its caption, the optional guest
      identity, and when it was uploaded and last updated. */
  datatype GalleryImage = GalleryImage(
    id: string,
    url: string,
    caption: string,
    guestName: Option<string>,
    guestEmail: Option<string>,
    guestPhone: Option<string>,
    uploadedAt: int,
    updatedAt: int)

  /** A stored RSVP. */
  datatype Rsvp = Rsvp(
    id: string,
    name: string,
    email: string,
    attending: bool,
    guestCount: int,
    message: Option<string>,
    createdAt: int)

  /** An account of the auth provider, with the optional role column. */
  datatype User = User(id: string, email: string, name: string, role: Option<string>)

  function ImageId(g: GalleryImage): string { g.id }
  function UploadedAt(g: GalleryImage): int { g.uploadedAt }
  function RsvpId(r: Rsvp): string { r.id }
  function CreatedAt(r: Rsvp): int { r.createdAt }

  /** Gallery images newest first, as `orderBy: { uploadedAt: 'desc' }`. */
  function NewestImages(images: seq<GalleryImage>): (r: seq<GalleryImage>)
    ensures |r| == |images|
    ensures multiset(r) == multiset(images)
    ensures Ordering.SortedDesc(r, UploadedAt)
  {
    Ordering.SortDescSorted(images, UploadedAt);
    Ordering.SortDesc(images, UploadedAt)
  }

  /** RSVPs newest first, as `orderBy: { createdAt: 'desc' }`. */
  function NewestRsvps(rsvps: seq<Rsvp>): (r: seq<Rsvp>)
    ensures |r| == |rsvps|
    ensures multiset(r) == multiset(rsvps)
    ensures Ordering.SortedDesc(r, CreatedAt)
  {
    Ordering.SortDescSorted(rsvps, CreatedAt);
    Ordering.SortDesc(rsvps, CreatedAt)
  }

  /** No two images share an upload time, so `orderBy: { uploadedAt:
      'desc' }` has only one answer. */
  predicate DistinctUploadTimes(images: seq<GalleryImage>) {
    Ordering.DistinctBy(images, UploadedAt)
  }

  /** Without ties, any newest-first listing of the images the database
      could return is the model's `NewestImages`. */
  lemma OnlyNewestOrder(images: seq<GalleryImage>, listed: seq<GalleryImage>)
    requires DistinctUploadTimes(images)
    requires multiset(listed) == multiset(images)
    requires Ordering.SortedDesc(listed, UploadedAt)
    ensures listed == NewestImages(images)
  {
    Ordering.SortDescDistinct(images, UploadedAt, UploadedAt);
    Ordering.SortedUnique(NewestImages(images), listed, UploadedAt);
  }

  /** The database keeps image ids unique. */
  predicate UniqueImageIds(images: seq<GalleryImage>) {
    Ordering.DistinctBy(images, ImageId)
  }

  predicate HasImage(images: seq<GalleryImage>, id: string) {
    exists i :: 0 <= i < |images| && images[i].id == id
  }
}

=== FILE: rsvp_api.dfy ===
/** The RSVP route: `POST` stores a reply and notifies the administrator
    best effort; `GET` lists every reply newest first. */
module RsvpApi {
  import opened Wrappers
  import opened Records
  import Mail
  import Ordering
  import Strings

  /** The JSON body of a submission. */
  datatype RsvpRequest = RsvpRequest(name: string, email: string, attending: bool, guestCount: int, message: Option<string>)

  /** What the database assigns to a new reply: its id and its time. */
  datatype Stamp = Stamp(id: string, at: int)

  /** The store after the request, the reply, the notification the
      handler attempted (if any), and the send error the inner catch
      logged (if any). */
  datatype Outcome = Outcome(
    rsvps: seq<Rsvp>,
    reply: Reply<Rsvp>,
    notified: Option<Mail.RsvpNotice>,
    mailError: Option<string>)

  const SubmitFailed: Reply<Rsvp> := Reply(500, Failure("Failed to submit RSVP"))
  const FetchFailed: Reply<seq<Rsvp>> := Reply(500, Failure("Failed to fetch RSVPs"))

  /** The party size that is stored and mailed: a guest who declines
      brings nobody, whatever the form sent. */
  function PartySize(attending: bool, guestCount: int): (n: int)
    ensures !attending ==> n == 0
    ensures attending ==> n == guestCount
  {
    if attending then guestCount else 0
  }

  /** `POST /api/rsvp`. `db` is whether the create throws and `mail`
      whether the notification throws; only the first matters to the
      guest, the second is caught and logged. */
  function Post(rsvps: seq<Rsvp>, req: RsvpRequest, stamp: Stamp, db: Health, mail: Health): (o: Outcome)
    ensures db.Down? <==> o.reply.status == 500
    ensures db.Down? ==> o.rsvps == rsvps && o.reply == SubmitFailed && o.notified.None? && o.mailError.None?
    ensures db.Up? ==> (o.mailError.Some? <==> mail.Down?) && (mail.Down? ==> o.mailError == Some(mail.message))
    ensures db.Up? ==> o.reply.status == 200 && o.reply.body.Success?
    ensures db.Up? && o.reply.body.Success? ==>
      var rec := o.reply.body.data;
      && o.rsvps == rsvps + [rec]
      && rec.id == stamp.id && rec.createdAt == stamp.at
      && rec.name == req.name && rec.email == req.email && rec.attending == req.attending
      && rec.guestCount == PartySize(req.attending, req.guestCount)
      && (rec.message.Some? <==> Truthy(req.message))
      && (rec.message.Some? ==> rec.message == req.message)
      && o.notified == Some(Mail.RsvpNotice(req.name, req.email, req.attending, rec.guestCount, req.message))
  {
    if db.Down? then Outcome(rsvps, SubmitFailed, None, None)
    else
      var size := PartySize(req.attending, req.guestCount);
      var rec := Rsvp(stamp.id, req.name, req.email, req.attending, size, OrNull(req.message), stamp.at);
      var logged := if mail.Down? then Some(mail.message) else None;
      Outcome(rsvps + [rec], Reply(200, Success(rec)), Some(Mail.RsvpNotice(req.name, req.email, req.attending, size, req.message)), logged)
  }

  /** `GET /api/rsvp`: every reply, newest first, or a 500. */
  function Get(rsvps: seq<Rsvp>, db: Health): (r: Reply<seq<Rsvp>>)
    ensures db.Down? ==> r == FetchFailed
    ensures db.Up? ==> r.status == 200 && r.body.Success?
    ensures db.Up? && r.body.Success? ==>
      && multiset(r.body.data) == multiset(rsvps)
      && Ordering.SortedDesc(r.body.data, CreatedAt)
  {
    if db.Down? then FetchFailed else Reply(200, Success(NewestRsvps(rsvps)))
  }

  /** A failing mail relay never changes the reply, the store or what was
      attempted; the failure only shows in the log, and only when a reply
      was stored. */
  lemma MailFailureIsHarmless(rsvps: seq<Rsvp>, req: RsvpRequest, stamp: Stamp, db: Health, msg: string)
    ensures var down := Post(rsvps, req, stamp, db, Down(msg));
      var up := Post(rsvps, req, stamp, db, Up);
      && down.rsvps == up.rsvps && down.reply == up.reply && down.notified == up.notified
      && up.mailError.None?
      && (down.mailError == Some(msg) <==> db.Up?)
  {
  }

  /** The stored reply and the administrator's mail agree: the same party
      size, and a "Message" paragraph exactly when a message was stored,
      carrying that message. */
  lemma StoredAndMailedAgree(rsvps: seq<Rsvp>, req: RsvpRequest, stamp: Stamp, mail: Health, env: Mail.Env)
    ensures var o := Post(rsvps, req, stamp, Up, mail);
      var rec := o.reply.body.data;
      var m := Mail.RsvpMail(env, o.notified.value);
      && m.body.paragraphs[3] == Mail.Para("Number of Guests", Strings.IntToString(rec.guestCount))
      && (Mail.HasLabel(m.body, "Message") <==> rec.message.Some?)
      && (rec.message.Some? ==> m.body.paragraphs[4] == Mail.Para("Message", rec.message.value))
  {
    var o := Post(rsvps, req, stamp, Up, mail);
    var m := Mail.RsvpMail(env, o.notified.value);
    assert m.body.paragraphs[..4][3] == m.body.paragraphs[3];
  }

  /** A stored reply appears in every later listing, and a listing holds
      nothing that was not stored. */
  lemma ListingShowsExactlyTheStore(rsvps: seq<Rsvp>, req: RsvpRequest, stamp: Stamp, mail: Health)
    ensures var o := Post(rsvps, req, stamp, Up, mail);
      var listed := Get(o.rsvps, Up).body.data;
      && o.reply.body.data in listed
      && |listed| == |rsvps| + 1
      && (forall x :: x in listed <==> x in rsvps || x == o.reply.body.data)
  {
    var o := Post(rsvps, req, stamp, Up, mail);
    var listed := Get(o.rsvps, Up).body.data;
    assert multiset(listed) == multiset(rsvps) + multiset{o.reply.body.data};
    forall x ensures x in listed <==> x in rsvps || x == o.reply.body.data {
      assert x in listed <==> x in multiset(listed);
      assert x in rsvps <==> x in multiset(rsvps);
    }
  }
}

=== FILE: rsvp_export.dfy ===
/** The administrator's RSVP views: the CSV export (every cell wrapped
    in double quotes, cells joined by commas, lines by line feeds, no
    trailing newline), the two headline figures, and the table cells.
    The dashboard page and the RSVP table component carry identical
    copies of this logic; it is defined once here. The locale date
    formatting of `createdAt` is a parameter. */
module RsvpExport {
  import opened Wrappers
  import opened Records
  import Strings

  const Headers: seq<string> := ["Name", "Email", "Attending", "Guest Count", "Message", "Date"]

  /** One RSVP's cells, in header order; `date` renders `createdAt`. */
  function Cells(r: Rsvp, date: int -> string): (cs: seq<string>)
    ensures |cs| == |Headers|
    ensures cs[0] == r.name && cs[1] == r.email
    ensures cs[2] == (if r.attending then "Yes" else "No")
    ensures cs[3] == Strings.IntToString(r.guestCount)
    ensures cs[4] == (if Truthy(r.message) then r.message.value else "")
    ensures cs[5] == date(r.createdAt)
  {
    [r.name, r.email, if r.attending then "Yes" else "No", Strings.IntToString(r.guestCount),
     if Truthy(r.message) then r.message.value else "", date(r.createdAt)]
  }

  /** A cell as exported: between double quotes, with nothing escaped. */
  function Quote(cell: string): (q: string)
    ensures |q| == |cell| + 2 && q[0] == '"' && q[|q| - 1] == '"'
    ensures q[1..|q| - 1] == cell
  {
    "\"" + cell + "\""
  }

  function QuoteAll(cells: seq<string>): (qs: seq<string>)
    ensures |qs| == |cells|
    ensures forall i :: 0 <= i < |cells| ==> qs[i] == Quote(cells[i])
  {
    seq(|cells|, i requires 0 <= i < |cells| => Quote(cells[i]))
  }

  /** One CSV line. */
  function Line(cells: seq<string>): string {
    Strings.Join(QuoteAll(cells), ',')
  }

  /** The lines of the RSVPs, one each, in list order. */
  function Body(rsvps: seq<Rsvp>, date: int -> string): (ls: seq<string>)
    ensures |ls| == |rsvps|
    ensures forall i :: 0 <= i < |rsvps| ==> ls[i] == RsvpLine(rsvps[i], date)
  {
    seq(|rsvps|, i requires 0 <= i < |rsvps| => RsvpLine(rsvps[i], date))
  }

  /** Every line of the export: the header line, then one per RSVP. */
  function Lines(rsvps: seq<Rsvp>, date: int -> string): (ls: seq<string>)
    ensures |ls| == |rsvps| + 1
    ensures ls[0] == HeaderText()
    ensures ls[1..] == Body(rsvps, date)
  {
    [HeaderText()] + Body(rsvps, date)
  }

  /** The line of one RSVP. */
  function RsvpLine(r: Rsvp, date: int -> string): string {
    Line(Cells(r, date))
  }

  /** The header line. */
  function HeaderText(): string {
    Line(Headers)
  }

  /** `exportToCSV`'s file contents. */
  /** The header line comes first, alone when there are no RSVPs and
      otherwise followed by a line feed. */
  function Csv(rsvps: seq<Rsvp>, date: int -> string): (r: string)
    ensures |rsvps| == 0 ==> r == HeaderText()
    ensures |rsvps| > 0 ==> |r| > |HeaderText()| && r[..|HeaderText()| + 1] == HeaderText() + "\n"
  {
    var ls := Lines(rsvps, date);
    assert |rsvps| > 0 ==> Strings.Join(ls, '\n') == ls[0] + ['\n'] + Strings.Join(ls[1..], '\n');
    Strings.Join(ls, '\n')
  }

  /** Strips the surrounding quotes of an exported cell. */
  function Unquote(q: string): string {
    if |q| >= 2 then q[1..|q| - 1] else q
  }

  /** One line read back: split at the commas, strip the quotes. */
  function Row(line: string): (cells: seq<string>)
    ensures |cells| == |Strings.Split(line, ',')|
  {
    var ps := Strings.Split(line, ',');
    seq(|ps|, j requires 0 <= j < |ps| => Unquote(ps[j]))
  }

  /** A reader of the export for the plain case: split the lines and
      read each. */
  function Decode(csv: string): (rows: seq<seq<string>>)
    ensures |rows| == |Strings.Split(csv, '\n')|
    ensures forall i :: 0 <= i < |rows| ==> rows[i] == Row(Strings.Split(csv, '\n')[i])
  {
    var ls := Strings.Split(csv, '\n');
    seq(|ls|, i requires 0 <= i < |ls| => Row(ls[i]))
  }

  /** A cell survives the export unchanged when it holds no comma and no
      line feed. */
  predicate Plain(cell: string) {
    ',' !in cell && '\n' !in cell
  }

  predicate AllPlain(cells: seq<string>) {
    forall i :: 0 <= i < |cells| ==> Plain(cells[i])
  }

  /** Every cell of every RSVP is plain. */
  predicate PlainRsvps(rsvps: seq<Rsvp>, date: int -> string) {
    forall i :: 0 <= i < |rsvps| ==> AllPlain(Cells(rsvps[i], date))
  }

  /** A character absent from every piece is absent from their join with
      a different separator. */
  lemma {:induction false} JoinAvoids(parts: seq<string>, sep: char, c: char)
    requires c != sep
    requires forall i :: 0 <= i < |parts| ==> c !in parts[i]
    ensures c !in Strings.Join(parts, sep)
    decreases |parts|
  {
    if |parts| > 1 {
      JoinAvoids(parts[1..], sep, c);
    }
  }

  /** A line of plain cells splits back into its quoted cells, reads
      back as those cells, and holds no line feed. */
  lemma LineRoundTrip(cells: seq<string>)
    requires |cells| >= 1
    requires AllPlain(cells)
    ensures Strings.Split(Line(cells), ',') == QuoteAll(cells)
    ensures Row(Line(cells)) == cells
    ensures '\n' !in Line(cells)
  {
    var qs := QuoteAll(cells);
    forall i | 0 <= i < |qs| ensures ',' !in qs[i] && '\n' !in qs[i] {
      assert qs[i] == "\"" + cells[i] + "\"";
    }
    Strings.SplitJoin(qs, ',');
    JoinAvoids(qs, ',', '\n');
  }

  /** The header line reads back as the column names. */
  lemma HeaderRoundTrip()
    ensures Row(HeaderText()) == Headers
    ensures '\n' !in HeaderText()
  {
    HeadersPlain();
    LineRoundTrip(Headers);
  }

  /** No column name holds a comma or a line feed. */
  lemma HeadersPlain()
    ensures AllPlain(Headers)
  {
    assert Headers[0] == "Name" && Headers[1] == "Email" && Headers[2] == "Attending";
    assert Headers[3] == "Guest Count" && Headers[4] == "Message" && Headers[5] == "Date";
  }

  /** The export has one header line and one line per RSVP, in list
      order, provided no cell holds a line feed. */
  lemma {:induction false} CsvLineStructure(rsvps: seq<Rsvp>, date: int -> string)
    requires PlainRsvps(rsvps, date)
    ensures Strings.Split(Csv(rsvps, date), '\n') == Lines(rsvps, date)
  {
    var ls := Lines(rsvps, date);
    HeaderRoundTrip();
    forall i | 0 <= i < |ls| ensures '\n' !in ls[i] {
      if i > 0 {
        LineRoundTrip(Cells(rsvps[i - 1], date));
      }
    }
    Strings.SplitJoin(ls, '\n');
  }

  /** Reading the export back yields the header row and every RSVP's
      cells, in order, whenever every cell is plain. */
  lemma CsvRoundTrip(rsvps: seq<Rsvp>, date: int -> string)
    requires PlainRsvps(rsvps, date)
    ensures |Decode(Csv(rsvps, date))| == |rsvps| + 1
    ensures Decode(Csv(rsvps, date))[0] == Headers
    ensures forall i :: 0 <= i < |rsvps| ==> Decode(Csv(rsvps, date))[i + 1] == Cells(rsvps[i], date)
  {
    CsvLineStructure(rsvps, date);
    var ls := Lines(rsvps, date);
    var rows := Decode(Csv(rsvps, date));
    HeaderRoundTrip();
    forall i | 0 <= i < |rsvps| ensures rows[i + 1] == Cells(rsvps[i], date) {
      LineRoundTrip(Cells(rsvps[i], date));
    }
  }

  const QuotedHeaders: seq<string> :=
    ["\"Name\"", "\"Email\"", "\"Attending\"", "\"Guest Count\"", "\"Message\"", "\"Date\""]

  /** The first line is the six column names, each between double
      quotes, joined by commas. */
  lemma HeaderLine()
    ensures QuoteAll(Headers) == QuotedHeaders
    ensures HeaderText() == Strings.Join(QuotedHeaders, ',')
  {
    var qs := QuoteAll(Headers);
    assert qs == [Quote("Name"), Quote("Email"), Quote("Attending"), Quote("Guest Count"), Quote("Message"), Quote("Date")];
    assert Quote("Name") == "\"Name\"";
    assert Quote("Email") == "\"Email\"";
    assert Quote("Attending") == "\"Attending\"";
    assert Quote("Guest Count") == "\"Guest Count\"";
    assert Quote("Message") == "\"Message\"";
    assert Quote("Date") == "\"Date\"";
  }

  /** The escaped-field form of RFC 4180 (section 2, rule 7): every
      double quote inside the field is doubled. */
  function Escape(cell: string): (e: string)
    ensures |e| >= |cell|
    ensures '"' !in cell ==> e == cell
    decreases |cell|
  {
    if |cell| == 0 then ""
    else (if cell[0] == '"' then "\"\"" else [cell[0]]) + Escape(cell[1..])
  }

  /** The export agrees with RFC 4180's escaping exactly when the cell
      has no double quote; otherwise it differs. */
  lemma {:induction false} QuoteMatchesRfcIffNoQuote(cell: string)
    ensures Quote(cell) == "\"" + Escape(cell) + "\"" <==> '"' !in cell
  {
    if '"' in cell {
      EscapeGrows(cell);
      assert |Quote(cell)| < |"\"" + Escape(cell) + "\""|;
    }
  }

  lemma {:induction false} EscapeGrows(cell: string)
    requires '"' in cell
    ensures |Escape(cell)| > |cell|
    decreases |cell|
  {
    if cell[0] != '"' {
      assert '"' in cell[1..] by {
        var k :| 0 <= k < |cell| && cell[k] == '"';
        assert cell[1..][k - 1] == '"';
      }
      EscapeGrows(cell[1..]);
    }
  }

  /** `attendingCount`: how many RSVPs say they attend. */
  function AttendingCount(rsvps: seq<Rsvp>): (n: nat)
    ensures n <= |rsvps|
    decreases |rsvps|
  {
    if |rsvps| == 0 then 0
    else (if rsvps[0].attending then 1 else 0) + AttendingCount(rsvps[1..])
  }

  /** `totalGuests`: the party sizes of the attending RSVPs only. */
  function TotalGuests(rsvps: seq<Rsvp>): (n: int)
    ensures AttendingCount(rsvps) == 0 ==> n == 0
    ensures (forall i :: 0 <= i < |rsvps| ==> rsvps[i].guestCount >= 0) ==> n >= 0
    decreases |rsvps|
  {
    if |rsvps| == 0 then 0
    else (if rsvps[0].attending then rsvps[0].guestCount else 0) + TotalGuests(rsvps[1..])
  }

  /** Sum of every stored guest count, attending or not. */
  function SumAll(rsvps: seq<Rsvp>): int
    decreases |rsvps|
  {
    if |rsvps| == 0 then 0 else rsvps[0].guestCount + SumAll(rsvps[1..])
  }

  /** The attending RSVPs, in order. */
  function Attending(rsvps: seq<Rsvp>): (r: seq<Rsvp>)
    ensures forall x :: x in r <==> x in rsvps && x.attending
    ensures |r| <= |rsvps|
    decreases |rsvps|
  {
    if |rsvps| == 0 then []
    else
      assert forall x :: x in rsvps <==> x == rsvps[0] || x in rsvps[1..];
      (if rsvps[0].attending then [rsvps[0]] else []) + Attending(rsvps[1..])
  }

  /** Both figures are the filter-then-count and filter-then-sum they
      are written as: the count is the number of attending RSVPs and the
      total sums exactly their guest counts. */
  lemma {:induction false} FiguresAreFilters(rsvps: seq<Rsvp>)
    ensures AttendingCount(rsvps) == |Attending(rsvps)|
    ensures TotalGuests(rsvps) == SumAll(Attending(rsvps))
    decreases |rsvps|
  {
    if |rsvps| > 0 {
      FiguresAreFilters(rsvps[1..]);
      var rest := Attending(rsvps[1..]);
      if rsvps[0].attending {
        assert ([rsvps[0]] + rest)[1..] == rest;
      } else {
        assert [] + rest == rest;
      }
    }
  }

  /** The figures add up over a concatenation, so they do not depend on
      how the list is split into pages. */
  lemma {:induction false} FiguresSplit(a: seq<Rsvp>, b: seq<Rsvp>)
    ensures AttendingCount(a + b) == AttendingCount(a) + AttendingCount(b)
    ensures TotalGuests(a + b) == TotalGuests(a) + TotalGuests(b)
    decreases |a|
  {
    if |a| == 0 {
      assert a + b == b;
    } else {
      assert (a + b)[1..] == a[1..] + b;
      FiguresSplit(a[1..], b);
    }
  }

  /** Every declined RSVP stores a party of zero. */
  predicate DeclinesStoreZero(rsvps: seq<Rsvp>) {
    forall i :: 0 <= i < |rsvps| ==> !rsvps[i].attending ==> rsvps[i].guestCount == 0
  }

  /** Over replies stored by the RSVP route, where a decline stores zero,
      the total guests is simply the sum of all stored counts. */
  lemma {:induction false} TotalOverStoredReplies(rsvps: seq<Rsvp>)
    requires DeclinesStoreZero(rsvps)
    ensures TotalGuests(rsvps) == SumAll(rsvps)
    decreases |rsvps|
  {
    if |rsvps| > 0 {
      assert DeclinesStoreZero(rsvps[1..]) by {
        forall i | 0 <= i < |rsvps[1..]| ensures !rsvps[1..][i].attending ==> rsvps[1..][i].guestCount == 0 {
          assert rsvps[1..][i] == rsvps[i + 1];
        }
      }
      TotalOverStoredReplies(rsvps[1..]);
    }
  }

  /** With every attending party at least one guest, there are at least
      as many guests as attending replies. */
  lemma {:induction false} GuestsCoverAttendees(rsvps: seq<Rsvp>)
    requires forall i :: 0 <= i < |rsvps| ==> rsvps[i].attending ==> rsvps[i].guestCount >= 1
    ensures TotalGuests(rsvps) >= AttendingCount(rsvps)
    decreases |rsvps|
  {
    if |rsvps| > 0 {
      assert forall i :: 0 <= i < |rsvps[1..]| ==> rsvps[1..][i] == rsvps[i + 1];
      GuestsCoverAttendees(rsvps[1..]);
    }
  }

  /** The table's Guests cell: the count for an attending reply, a dash
      otherwise. */
  function GuestsCell(r: Rsvp): (s: string)
    ensures r.attending ==> s == Strings.IntToString(r.guestCount)
    ensures !r.attending ==> s == "-"
  {
    if r.attending then Strings.IntToString(r.guestCount) else "-"
  }

  /** The table's Message cell: the message, or a dash when there is none. */
  function MessageCell(r: Rsvp): (s: string)
    ensures Truthy(r.message) ==> s == r.message.value
    ensures !Truthy(r.message) ==> s == "-"
  {
    if Truthy(r.message) then r.message.value else "-"
  }

  /** The table and the export show the same guest count for an
      attending reply; for a declined one the table shows a dash and the
      export the stored count. The message differs only when absent. */
  lemma TableAgreesWithExport(r: Rsvp, date: int -> string)
    ensures r.attending <==> GuestsCell(r) == Cells(r, date)[3]
    ensures Truthy(r.message) <==> MessageCell(r) == Cells(r, date)[4]
  {
    Strings.IntToStringIsNotDash(r.guestCount);
  }
}

=== FILE: rsvp_form.dfy ===
/** The public RSVP form: its fields, the payload it posts, how it reacts
    to the answer, and when the section switches to its "event is over"
    view (strictly after midnight at the start of the day after the
    reception, in the visitor's local time). */
module RsvpForm {
  import opened Wrappers
  import Calendar
  import RsvpApi
  import Records

  /** The form fields; `attending` is the checked radio's value. */
  datatype FormData = FormData(name: string, email: string, attending: string, guestCount: int, message: string)

  datatype Form = Form(data: FormData, isSubmitting: bool)

  /** The blank form the section starts with and resets to. */
  const Blank := FormData("", "", "yes", 1, "")

  function Initial(): (f: Form)
    ensures f.data == Blank && !f.isSubmitting
  {
    Form(Blank, false)
  }

  /** The JSON body `handleSubmit` posts: the fields as typed, with
      `attending` turned into whether "yes" was picked. */
  function Payload(d: FormData): (r: RsvpApi.RsvpRequest)
    ensures r.attending <==> d.attending == "yes"
    ensures r.name == d.name && r.email == d.email && r.guestCount == d.guestCount
    ensures r.message == Some(d.message)
  {
    RsvpApi.RsvpRequest(d.name, d.email, d.attending == "yes", d.guestCount, Some(d.message))
  }

  /** Submitting: the form is busy and the payload is sent. */
  function StartSubmit(f: Form): (r: (Form, RsvpApi.RsvpRequest))
    ensures r.0 == f.(isSubmitting := true)
    ensures r.1 == Payload(f.data)
  {
    (f.(isSubmitting := true), Payload(f.data))
  }

  /** The answer: an OK response clears the form, anything else keeps
      what the guest typed; the form is never left busy. */
  function FinishSubmit(f: Form, resp: Response): (r: Form)
    ensures !r.isSubmitting
    ensures resp == OkResponse ==> r.data == Blank
    ensures resp != OkResponse ==> r.data == f.data
  {
    if resp == OkResponse then Form(Blank, false) else f.(isSubmitting := false)
  }

  /** The guest-count field is only rendered for a "yes", which is
      exactly when the payload says the guest attends. */
  function GuestCountVisible(d: FormData): (v: bool)
    ensures v <==> Payload(d).attending
  {
    d.attending == "yes"
  }

  /** An OK answer returns the form to the state it started in, which
      shows the guest-count field; sent untouched, that form stores a
      reply for one attending guest with no message. */
  lemma OkResetsToInitial(f: Form, rsvps: seq<Records.Rsvp>, stamp: RsvpApi.Stamp, mail: Health)
    ensures FinishSubmit(f, OkResponse) == Initial()
    ensures GuestCountVisible(Initial().data)
    ensures var rec := RsvpApi.Post(rsvps, StartSubmit(Initial()).1, stamp, Up, mail).reply.body.data;
      rec.attending && rec.guestCount == 1 && rec.message.None?
  {
  }

  /** A whole submission, against the RSVP route with a healthy database:
      the reply is OK, the form is blank again, and the stored reply
      brings nobody when the count field was hidden, otherwise the count
      typed; an empty message is stored as none. */
  lemma SubmissionStoresWhatWasShown(f: Form, rsvps: seq<Records.Rsvp>, stamp: RsvpApi.Stamp, mail: Health)
    ensures var (busy, req) := StartSubmit(f);
      var o := RsvpApi.Post(rsvps, req, stamp, Up, mail);
      var rec := o.reply.body.data;
      && o.reply.Ok()
      && FinishSubmit(busy, Classify(o.reply)) == Initial()
      && rec.guestCount == (if GuestCountVisible(f.data) then f.data.guestCount else 0)
      && (rec.message.None? <==> f.data.message == "")
      && rec.name == f.data.name && rec.email == f.data.email
  {
  }

  /** When the database fails the route answers 500, nothing is stored,
      and the guest keeps what they typed. */
  lemma FailedSubmissionKeepsForm(f: Form, rsvps: seq<Records.Rsvp>, stamp: RsvpApi.Stamp, msg: string, mail: Health)
    ensures var (busy, req) := StartSubmit(f);
      var o := RsvpApi.Post(rsvps, req, stamp, Down(msg), mail);
      && o.rsvps == rsvps
      && FinishSubmit(busy, Classify(o.reply)) == f.(isSubmitting := false)
  {
  }

  /** `getReceptionEndDate`: the reception's date, 2026-01-11. */
  const ReceptionDay := Calendar.Date(2026, 1, 11)

  /** The end of the reception in a zone `offset` milliseconds east of
      UTC: local midnight at the start of the next day. */
  function ReceptionEnd(offset: int): (t: int)
    ensures t == Calendar.LocalInstant(Calendar.Date(2026, 1, 12), 0, 0, offset)
    ensures t + offset == 1768176000000
  {
    var next := Calendar.NextDay(ReceptionDay);
    Calendar.LocalInstant(next, 0, 0, offset)
  }

  /** The check run on mount and every minute: the event is over once
      more than twelve hours have passed since the reception's local
      noon start. */
  function IsEventOver(now: int, offset: int): (b: bool)
    ensures b <==> now - Calendar.LocalInstant(ReceptionDay, 12, 0, offset) > 12 * Calendar.MsPerHour
  {
    EndIsTwelveHoursAfterStart(offset);
    now > ReceptionEnd(offset)
  }

  /** The end is twelve hours after the noon start of the reception, in
      every zone. */
  lemma EndIsTwelveHoursAfterStart(offset: int)
    ensures ReceptionEnd(offset) - Calendar.LocalInstant(ReceptionDay, 12, 0, offset) == 12 * Calendar.MsPerHour
  {
    Calendar.NextDayIsOneLater(ReceptionDay);
  }

  /** In local terms: during 2026-01-11 and before it the event is not
      over; on any later local day it is, except at the very first
      millisecond of 2026-01-12, which is the end itself. */
  lemma EventOverByLocalDay(now: int, offset: int)
    ensures Calendar.LocalDay(now, offset) <= Calendar.DayIndex(ReceptionDay) ==> !IsEventOver(now, offset)
    ensures Calendar.LocalDay(now, offset) > Calendar.DayIndex(ReceptionDay) + 1 ==> IsEventOver(now, offset)
    ensures Calendar.LocalDay(now, offset) == Calendar.DayIndex(ReceptionDay) + 1 ==>
      (IsEventOver(now, offset) <==> now != ReceptionEnd(offset))
  {
    var k := Calendar.DayIndex(ReceptionDay);
    Calendar.NextDayIsOneLater(ReceptionDay);
    assert ReceptionEnd(offset) + offset == (k + 1) * Calendar.MsPerDay;
  }

  /** Once over, the event stays over. */
  lemma EventOverIsFinal(now: int, later: int, offset: int)
    requires IsEventOver(now, offset)
    requires now <= later
    ensures IsEventOver(later, offset)
  {
  }
}

=== FILE: sign_up.dfy ===
/** `POST /api/auth/sign-up`: validates the request, refuses an email
    that already has an account, asks the auth provider to create the
    account (defaulting the display name to the part of the email before
    its first `@`), and then writes the requested role, if any, onto the
    new account. The user table and the auth provider are collaborators
    whose outcomes are parameters. */
module SignUp {
  import opened Wrappers
  import opened Records
  import Strings

  /** The JSON body; any field may be missing or empty. */
  datatype SignUpRequest = SignUpRequest(
    email: Option<string>,
    password: Option<string>,
    name: Option<string>,
    role: Option<string>)

  /** What is handed to the provider's `signUpEmail`. */
  datatype ProviderBody = ProviderBody(email: string, password: string, name: string)

  /** What the provider threw: an `Error` carries a message, anything else
      does not. */
  datatype Thrown = ErrorObject(message: string) | OtherValue

  /** The provider's answer: it throws, or it returns a result whose
      `user` may be missing. */
  datatype ProviderOutcome = Threw(thrown: Thrown) | Returned(user: Option<User>)

  /** The user table after the request, the reply, and the body handed to
      the provider (none when the handler stopped before calling it). */
  datatype Outcome = Outcome(users: seq<User>, reply: Reply<User>, sent: Option<ProviderBody>)

  const MissingFields: Reply<User> := Reply(400, Failure("Email and password are required"))
  const Exists: Reply<User> := Reply(409, Failure("User already exists"))
  const CreateFailed: Reply<User> := Reply(500, Failure("Failed to create user"))

  predicate HasEmail(users: seq<User>, email: string) {
    exists i :: 0 <= i < |users| && users[i].email == email
  }

  /** The name used when the request gives none: the email up to its
      first `@`, or the whole email when it has none. */
  function DefaultName(email: string): (n: string)
    ensures n <= email
    ensures '@' !in n
    ensures '@' in email <==> |n| < |email|
    ensures |n| < |email| ==> email[|n|] == '@'
  {
    Strings.SplitFirstPiece(email, '@');
    Strings.Split(email, '@')[0]
  }

  /** The caught error's message, or the generic one when what was
      thrown is not an `Error`. */
  function ErrorMessage(t: Thrown): (m: string)
    ensures t.ErrorObject? ==> m == t.message
    ensures t.OtherValue? ==> m == "Failed to create user"
  {
    match t
    case ErrorObject(msg) => msg
    case OtherValue => "Failed to create user"
  }

  /** Writes `role` onto the account with `id`. */
  function SetRole(users: seq<User>, id: string, role: string): (r: seq<User>)
    ensures |r| == |users|
    ensures forall i :: 0 <= i < |users| ==>
      r[i] == if users[i].id == id then users[i].(role := Some(role)) else users[i]
  {
    seq(|users|, i requires 0 <= i < |users| =>
      if users[i].id == id then users[i].(role := Some(role)) else users[i])
  }

  /** The handler. `lookup` is whether the existence check throws,
      `provider` what the provider does, `update` whether the role write
      throws. */
  function Post(users: seq<User>, req: SignUpRequest, lookup: Health, provider: ProviderOutcome, update: Health)
    : (o: Outcome)
    ensures !Truthy(req.email) || !Truthy(req.password) ==> o == Outcome(users, MissingFields, None)
    ensures o.reply.status == 200 ==> o.reply.body.Success?
    ensures o.sent.Some? <==>
      Truthy(req.email) && Truthy(req.password) && lookup.Up? && !HasEmail(users, req.email.value)
    ensures o.sent.Some? ==>
      && o.sent.value.email == req.email.value
      && o.sent.value.password == req.password.value
      && o.sent.value.name == (if Truthy(req.name) then req.name.value else DefaultName(req.email.value))
  {
    if !Truthy(req.email) || !Truthy(req.password) then Outcome(users, MissingFields, None)
    else if lookup.Down? then Outcome(users, CreateFailed, None)
    else if HasEmail(users, req.email.value) then Outcome(users, Exists, None)
    else
      var email := req.email.value;
      var body := ProviderBody(email, req.password.value,
        if Truthy(req.name) then req.name.value else DefaultName(email));
      match provider
      case Threw(t) => Outcome(users, Reply(400, Failure(ErrorMessage(t))), Some(body))
      case Returned(None) => Outcome(users, CreateFailed, Some(body))
      case Returned(Some(u)) =>
        if u.id == "" then Outcome(users + [u], CreateFailed, Some(body))
        else if !Truthy(req.role) then Outcome(users + [u], Reply(200, Success(u)), Some(body))
        else match update
          // The role write sits inside the provider's try, so its failure
          // is answered like a provider error, after the account exists.
          case Down(msg) => Outcome(users + [u], Reply(400, Failure(msg)), Some(body))
          case Up => Outcome(SetRole(users + [u], u.id, req.role.value), Reply(200, Success(u)), Some(body))
  }

  /** A request is accepted exactly when both required fields are given,
      the email is new, the provider returns a user with an id, and any
      requested role could be written; the reply then carries the user
      the provider returned. */
  lemma AcceptedExactly(users: seq<User>, req: SignUpRequest, lookup: Health, provider: ProviderOutcome, update: Health)
    ensures var o := Post(users, req, lookup, provider, update);
      o.reply.status == 200 <==>
        && Truthy(req.email) && Truthy(req.password)
        && lookup.Up? && !HasEmail(users, req.email.value)
        && provider.Returned? && provider.user.Some? && provider.user.value.id != ""
        && (Truthy(req.role) ==> update.Up?)
    ensures var o := Post(users, req, lookup, provider, update);
      o.reply.status == 200 ==> o.reply.body.data == provider.user.value
  {
  }

  /** Every refusal, and which status and message it carries. */
  lemma RefusalsInOrder(users: seq<User>, req: SignUpRequest, lookup: Health, provider: ProviderOutcome, update: Health)
    requires Truthy(req.email) && Truthy(req.password)
    ensures var o := Post(users, req, lookup, provider, update);
      && (lookup.Down? ==> o.reply == CreateFailed && o.users == users)
      && (lookup.Up? && HasEmail(users, req.email.value) ==> o.reply == Exists && o.users == users)
      && (lookup.Up? && !HasEmail(users, req.email.value) && provider.Threw? ==>
            o.reply == Reply(400, Failure(ErrorMessage(provider.thrown))) && o.users == users)
      && (lookup.Up? && !HasEmail(users, req.email.value) && provider == Returned(None) ==>
            o.reply == CreateFailed && o.users == users)
      && (lookup.Up? && !HasEmail(users, req.email.value) && provider.Returned? && provider.user.Some? ==>
            (provider.user.value.id == "" ==> o.reply == CreateFailed))
  {
  }

  /** After a successful sign-up the table holds one more account, and
      it carries the requested role when one was given; no other account
      changes. */
  lemma SuccessStoresAccount(users: seq<User>, req: SignUpRequest, lookup: Health, provider: ProviderOutcome, update: Health)
    requires UniqueUserIds(users)
    requires provider.Returned? && provider.user.Some?
    requires !HasId(users, provider.user.value.id)
    ensures var o := Post(users, req, lookup, provider, update);
      var u := provider.user.value;
      o.reply.status == 200 ==>
        && |o.users| == |users| + 1
        && o.users[..|users|] == users
        && o.users[|users|] == (if Truthy(req.role) then u.(role := req.role) else u)
  {
    var o := Post(users, req, lookup, provider, update);
    var u := provider.user.value;
    if o.reply.status == 200 && Truthy(req.role) {
      var all := users + [u];
      assert o.users == SetRole(all, u.id, req.role.value);
      forall i | 0 <= i < |users| ensures o.users[i] == users[i] {
        assert all[i] == users[i];
        assert users[i].id != u.id;
      }
      assert all[|users|] == u;
    }
  }

  predicate HasId(users: seq<User>, id: string) {
    exists i :: 0 <= i < |users| && users[i].id == id
  }

  predicate UniqueUserIds(users: seq<User>) {
    forall i, j :: 0 <= i < j < |users| ==> users[i].id != users[j].id
  }

  /** An existing email is always refused with a 409 and never reaches
      the provider. */
  lemma DuplicateEmailRefused(users: seq<User>, k: nat, password: string, name: Option<string>, role: Option<string>,
                              provider: ProviderOutcome, update: Health)
    requires k < |users|
    requires users[k].email != "" && password != ""
    ensures var o := Post(users, SignUpRequest(Some(users[k].email), Some(password), name, role), Up, provider, update);
      o == Outcome(users, Exists, None)
  {
  }
}

=== FILE: strings.dfy ===
/** String helpers with the semantics of the JavaScript built-ins the
    program relies on: `String(n)` for integers, `Array.prototype.join`
    with a one-character separator, and `String.prototype.split` on a
    one-character separator. */
module Strings {

  predicate IsDigit(c: char) {
    '0' <= c <= '9'
  }

  predicate AllDigits(s: string) {
    forall i :: 0 <= i < |s| ==> IsDigit(s[i])
  }

  function DigitChar(d: nat): (c: char)
    requires d < 10
    ensures IsDigit(c)
  {
    "0123456789"[d]
  }

  function DigitValue(c: char): (d: nat)
    requires IsDigit(c)
    ensures d < 10
  {
    c as int - '0' as int
  }

  /** `String(n)` for a non-negative integer: its shortest decimal
      spelling, without leading zeros. */
  function NatToString(n: nat): (s: string)
    ensures 1 <= |s|
    ensures AllDigits(s)
    ensures 1 < |s| ==> s[0] != '0'
    ensures n < 10 <==> |s| == 1
    decreases n
  {
    if n < 10 then [DigitChar(n)] else NatToString(n / 10) + [DigitChar(n % 10)]
  }

  /** Reads a string of decimal digits back as a number. */
  function ParseNat(s: string): nat
    requires AllDigits(s)
    decreases |s|
  {
    if |s| == 0 then 0 else ParseNat(s[..|s| - 1]) * 10 + DigitValue(s[|s| - 1])
  }

  /** `String(i)` for any integer: a minus sign before negatives, then
      the decimal digits of the magnitude, which read back as it. */
  function IntToString(i: int): (s: string)
    ensures 1 <= |s|
    ensures s[0] == '-' <==> i < 0
    ensures i >= 0 ==> AllDigits(s) && ParseNat(s) == i
    ensures i < 0 ==> AllDigits(s[1..]) && ParseNat(s[1..]) == -i
  {
    if i < 0 then
      ParseNatToString(-i);
      assert ("-" + NatToString(-i))[1..] == NatToString(-i);
      "-" + NatToString(-i)
    else
      ParseNatToString(i);
      NatToString(i)
  }

  /** A spelled-out number is never a lone dash, which the tables use
      for a missing value. */
  lemma IntToStringIsNotDash(i: int)
    ensures IntToString(i) != "-"
  {
    if i < 0 {
      assert |IntToString(i)| == 1 + |NatToString(-i)|;
    }
  }

  /** Decimal spelling and reading are inverse. */
  lemma {:induction false} ParseNatToString(n: nat)
    ensures ParseNat(NatToString(n)) == n
    decreases n
  {
    var s := NatToString(n);
    if n >= 10 {
      ParseNatToString(n / 10);
      assert s[..|s| - 1] == NatToString(n / 10);
      assert DigitValue(s[|s| - 1]) == n % 10;
    } else {
      assert s[..0] == [];
    }
  }

  /** `parts.join(sep)`: the empty array joins to `''`. */
  function Join(parts: seq<string>, sep: char): string
    decreases |parts|
  {
    if |parts| == 0 then ""
    else if |parts| == 1 then parts[0]
    else parts[0] + [sep] + Join(parts[1..], sep)
  }

  /** `s.split(sep)`: the pieces between occurrences of `sep`, so the
      empty string splits into one empty piece. */
  function Split(s: string, sep: char): (parts: seq<string>)
    ensures 1 <= |parts|
    decreases |s|
  {
    if |s| == 0 then [""]
    else
      var rest := Split(s[1..], sep);
      if s[0] == sep then [""] + rest else [[s[0]] + rest[0]] + rest[1..]
  }

  /** A string without the separator splits into itself. */
  lemma {:induction false} SplitNoSeparator(s: string, sep: char)
    requires sep !in s
    ensures Split(s, sep) == [s]
    decreases |s|
  {
    if |s| > 0 {
      SplitNoSeparator(s[1..], sep);
      assert [s[0]] + s[1..] == s;
    }
  }

  /** Splitting at the first separator peels off the piece before it. */
  lemma {:induction false} SplitAtFirst(p: string, sep: char, q: string)
    requires sep !in p
    ensures Split(p + [sep] + q, sep) == [p] + Split(q, sep)
    decreases |p|
  {
    if |p| == 0 {
      assert p + [sep] + q == [sep] + q;
      assert ([sep] + q)[1..] == q;
    } else {
      var s := p + [sep] + q;
      assert s[0] == p[0];
      assert s[1..] == p[1..] + [sep] + q;
      SplitAtFirst(p[1..], sep, q);
      assert [p[0]] + p[1..] == p;
    }
  }

  /** Split undoes Join as long as no piece contains the separator. */
  lemma {:induction false} SplitJoin(parts: seq<string>, sep: char)
    requires 1 <= |parts|
    requires forall i :: 0 <= i < |parts| ==> sep !in parts[i]
    ensures Split(Join(parts, sep), sep) == parts
    decreases |parts|
  {
    if |parts| == 1 {
      SplitNoSeparator(parts[0], sep);
    } else {
      SplitJoin(parts[1..], sep);
      SplitAtFirst(parts[0], sep, Join(parts[1..], sep));
      assert [parts[0]] + parts[1..] == parts;
    }
  }

  /** No piece of a split contains the separator. */
  lemma {:induction false} SplitPiecesFree(s: string, sep: char)
    ensures forall i :: 0 <= i < |Split(s, sep)| ==> sep !in Split(s, sep)[i]
    decreases |s|
  {
    if |s| > 0 {
      SplitPiecesFree(s[1..], sep);
    }
  }

  /** Join undoes Split: the pieces and separators spell the original. */
  lemma {:induction false} JoinSplit(s: string, sep: char)
    ensures Join(Split(s, sep), sep) == s
    decreases |s|
  {
    if |s| > 0 {
      var rest := Split(s[1..], sep);
      JoinSplit(s[1..], sep);
      if s[0] == sep {
        assert Split(s, sep) == [""] + rest;
        assert ([""] + rest)[1..] == rest;
        assert [sep] + s[1..] == s;
      } else {
        var parts := Split(s, sep);
        assert parts == [[s[0]] + rest[0]] + rest[1..];
        if |rest| == 1 {
          assert Join(parts, sep) == [s[0]] + rest[0];
        } else {
          assert parts[1..] == rest[1..];
          assert Join(rest, sep) == rest[0] + [sep] + Join(rest[1..], sep);
          assert Join(parts, sep) == [s[0]] + rest[0] + [sep] + Join(rest[1..], sep);
        }
        assert [s[0]] + s[1..] == s;
      }
    }
  }

  /** The separator occurs in the string exactly when splitting yields
      more than one piece. */
  lemma {:induction false} SplitCountsSeparator(s: string, sep: char)
    ensures sep in s <==> 1 < |Split(s, sep)|
    decreases |s|
  {
    if |s| > 0 {
      SplitCountsSeparator(s[1..], sep);
      assert s == [s[0]] + s[1..];
    }
  }
  /** The first piece of a split is the longest separator-free prefix:
      it is followed by the separator whenever the string contains one. */
  lemma {:induction false} SplitFirstPiece(s: string, sep: char)
    ensures var p := Split(s, sep)[0];
      && p <= s
      && sep !in p
      && (sep in s <==> |p| < |s|)
      && (|p| < |s| ==> s[|p|] == sep)
    decreases |s|
  {
    if |s| > 0 {
      SplitFirstPiece(s[1..], sep);
      assert s == [s[0]] + s[1..];
    }
  }

  /** The last piece of a split is the longest separator-free suffix:
      it is preceded by the separator whenever the string contains one. */
  lemma {:induction false} SplitLastPiece(s: string, sep: char)
    ensures var parts := Split(s, sep);
      var q := parts[|parts| - 1];
      && |q| <= |s|
      && q == s[|s| - |q|..]
      && sep !in q
      && (sep in s <==> |q| < |s|)
      && (|q| < |s| ==> s[|s| - |q| - 1] == sep)
    decreases |s|
  {
    if |s| > 0 {
      var rest := Split(s[1..], sep);
      SplitLastPiece(s[1..], sep);
      SplitCountsSeparator(s[1..], sep);
      assert s == [s[0]] + s[1..];
      if s[0] != sep && |rest| == 1 {
        SplitNoSeparator(s[1..], sep);
      }
    }
  }
}

=== FILE: upload_api.dfy ===
/** `POST /api/upload`: stores one gallery record for an uploaded image
    and then tries, best effort, to notify the administrator. The
    database and the mail relay are abstract collaborators that may fail. */
module UploadApi {
  import opened Wrappers
  import opened Records
  import Mail
  import Ordering

  /** The JSON body of the request. */
  datatype UploadRequest = UploadRequest(
    url: string,
    caption: string,
    guestName: Option<string>,
    guestEmail: Option<string>,
    guestPhone: Option<string>)

  /** What the database assigns to a new record: its id and its time. */
  datatype Stamp = Stamp(id: string, at: int)

  /** The store after the request, the reply, the notification the
      handler attempted (if any), and the send error the inner catch
      logged (if any). */
  datatype Outcome = Outcome(
    images: seq<GalleryImage>,
    reply: Reply<GalleryImage>,
    notified: Option<Mail.UploadNotice>,
    mailError: Option<string>)

  const CreateFailed: Reply<GalleryImage> := Reply(500, Failure("Failed to upload image"))

  /** The database refuses a create when it is down or the id is taken. */
  predicate CanCreate(images: seq<GalleryImage>, stamp: Stamp, db: Health) {
    db.Up? && !HasImage(images, stamp.id)
  }

  /** The handler. `mail` is whether sending the notification throws; the
      handler catches and logs that, and answers the same either way. */
  function Post(images: seq<GalleryImage>, req: UploadRequest, stamp: Stamp, db: Health, mail: Health)
    : (o: Outcome)
    ensures o.reply.status == 200 <==> CanCreate(images, stamp, db)
    ensures !CanCreate(images, stamp, db) ==>
      o.images == images && o.reply == CreateFailed && o.notified.None? && o.mailError.None?
    ensures CanCreate(images, stamp, db) ==> o.reply.body.Success?
    ensures CanCreate(images, stamp, db) ==>
      (o.mailError.Some? <==> mail.Down?) && (mail.Down? ==> o.mailError == Some(mail.message))
    ensures CanCreate(images, stamp, db) && o.reply.body.Success? ==>
      var rec := o.reply.body.data;
      && o.images == images + [rec]
      && rec.id == stamp.id && rec.uploadedAt == stamp.at
      && rec.url == req.url && rec.caption == req.caption
      && (rec.guestName.Some? <==> Truthy(req.guestName)) && (rec.guestName.Some? ==> rec.guestName == req.guestName)
      && (rec.guestEmail.Some? <==> Truthy(req.guestEmail)) && (rec.guestEmail.Some? ==> rec.guestEmail == req.guestEmail)
      && (rec.guestPhone.Some? <==> Truthy(req.guestPhone)) && (rec.guestPhone.Some? ==> rec.guestPhone == req.guestPhone)
      && o.notified == Some(Mail.UploadNotice(req.caption, req.guestName, req.guestEmail, req.guestPhone, req.url))
  {
    if !CanCreate(images, stamp, db) then Outcome(images, CreateFailed, None, None)
    else
      var rec := GalleryImage(stamp.id, req.url, req.caption,
        OrNull(req.guestName), OrNull(req.guestEmail), OrNull(req.guestPhone), stamp.at, stamp.at);
      var notice := Mail.UploadNotice(req.caption, req.guestName, req.guestEmail, req.guestPhone, req.url);
      var logged := if mail.Down? then Some(mail.message) else None;
      Outcome(images + [rec], Reply(200, Success(rec)), Some(notice), logged)
  }

  /** A failing mail relay never changes what the guest is told, what is
      stored or what was attempted; the failure only shows in the log,
      and only when a record was created. */
  lemma MailFailureIsHarmless(images: seq<GalleryImage>, req: UploadRequest, stamp: Stamp, db: Health, msg: string)
    ensures var down := Post(images, req, stamp, db, Down(msg));
      var up := Post(images, req, stamp, db, Up);
      && down.images == up.images && down.reply == up.reply && down.notified == up.notified
      && up.mailError.None?
      && (down.mailError == Some(msg) <==> CanCreate(images, stamp, db))
  {
  }

  /** Creating a record keeps ids unique. */
  lemma PostKeepsIdsUnique(images: seq<GalleryImage>, req: UploadRequest, stamp: Stamp, db: Health, mail: Health)
    requires UniqueImageIds(images)
    ensures UniqueImageIds(Post(images, req, stamp, db, mail).images)
  {
    var o := Post(images, req, stamp, db, mail);
    if CanCreate(images, stamp, db) {
      forall i, j | 0 <= i < j < |o.images| ensures ImageId(o.images[i]) != ImageId(o.images[j]) {
        if j == |images| {
          assert o.images[j].id == stamp.id;
          assert o.images[i] == images[i];
        } else {
          assert o.images[i] == images[i] && o.images[j] == images[j];
        }
      }
    }
  }

  /** The upload page's submission: one request per uploaded URL, each
      with the same caption and guest fields, answered in order. */
  function PostEach(images: seq<GalleryImage>, urls: seq<string>, caption: string,
                    guestName: Option<string>, guestEmail: Option<string>, guestPhone: Option<string>,
                    stamps: seq<Stamp>, db: Health, mail: Health): (r: (seq<GalleryImage>, seq<Reply<GalleryImage>>))
    requires |stamps| == |urls|
    ensures |r.1| == |urls|
    decreases |urls|
  {
    if |urls| == 0 then (images, [])
    else
      var o := Post(images, UploadRequest(urls[0], caption, guestName, guestEmail, guestPhone), stamps[0], db, mail);
      var rest := PostEach(o.images, urls[1..], caption, guestName, guestEmail, guestPhone, stamps[1..], db, mail);
      (rest.0, [o.reply] + rest.1)
  }

  /** With a healthy database and fresh, distinct ids, submitting N URLs
      stores exactly N new records after the old ones, record i carrying
      URL i and the shared caption, and every reply is a success. */
  lemma {:induction false} PostEachCreatesOnePerUrl(images: seq<GalleryImage>, urls: seq<string>, caption: string,
                    guestName: Option<string>, guestEmail: Option<string>, guestPhone: Option<string>,
                    stamps: seq<Stamp>, mail: Health)
    requires |stamps| == |urls|
    requires forall k :: 0 <= k < |stamps| ==> !HasImage(images, stamps[k].id)
    requires forall k, l :: 0 <= k < l < |stamps| ==> stamps[k].id != stamps[l].id
    ensures var r := PostEach(images, urls, caption, guestName, guestEmail, guestPhone, stamps, Up, mail);
      && |r.0| == |images| + |urls|
      && r.0[..|images|] == images
      && (forall k :: 0 <= k < |urls| ==>
            r.0[|images| + k].url == urls[k] && r.0[|images| + k].caption == caption)
      && (forall k :: 0 <= k < |urls| ==> r.1[k].status == 200)
    decreases |urls|
  {
    if |urls| > 0 {
      var o := Post(images, UploadRequest(urls[0], caption, guestName, guestEmail, guestPhone), stamps[0], Up, mail);
      var rec := o.reply.body.data;
      assert o.images == images + [rec];
      assert rec.url == urls[0] && rec.caption == caption;
      forall k | 0 <= k < |stamps[1..]| ensures !HasImage(o.images, stamps[1..][k].id) {
        assert stamps[1..][k] == stamps[k + 1];
        assert stamps[0].id != stamps[k + 1].id;
        assert !HasImage(images, stamps[k + 1].id);
      }
      PostEachCreatesOnePerUrl(o.images, urls[1..], caption, guestName, guestEmail, guestPhone, stamps[1..], mail);
      var r := PostEach(images, urls, caption, guestName, guestEmail, guestPhone, stamps, Up, mail);
      var rest := PostEach(o.images, urls[1..], caption, guestName, guestEmail, guestPhone, stamps[1..], Up, mail);
      assert r == (rest.0, [o.reply] + rest.1);
      assert rest.0[..|o.images|] == o.images;
      assert r.0[..|images|] == rest.0[..|o.images|][..|images|];
      forall k | 0 <= k < |urls| ensures r.0[|images| + k].url == urls[k] && r.0[|images| + k].caption == caption {
        if k == 0 {
          assert r.0[|images|] == rest.0[..|o.images|][|images|] == rec;
        } else {
          assert r.0[|images| + k] == rest.0[|o.images| + (k - 1)];
          assert urls[1..][k - 1] == urls[k];
        }
      }
      forall k | 0 <= k < |urls| ensures r.1[k].status == 200 {
        if k > 0 { assert r.1[k] == rest.1[k - 1]; }
      }
    }
  }
}

=== FILE: upload_zone.dfy ===
/** The guest upload zone: a list of selected files, each with an upload
    status, a progress percentage and, once uploaded, its hosted URL.
    Every handler replaces the whole list, as the component's functional
    state updates do. The hosting service's callbacks (progress, success,
    error) are separate atomic steps. */
module UploadZone {
  import opened Wrappers

  /** The limit the component uses when its caller gives none. */
  const DefaultMaxFiles: nat := 5

  /** The only four statuses a file can have. */
  datatype Status = Pending | Uploading | Completed | Error

  /** A file picked by the guest, as far as this model needs it. */
  datatype FileRef = FileRef(name: string, size: nat)

  datatype UploadedFile = UploadedFile(file: FileRef, url: Option<string>, progress: int, status: Status)

  datatype Zone = Zone(files: seq<UploadedFile>, isUploading: bool, maxFiles: nat)

  /** Whether a drop was taken or refused with the "Maximum N files" toast. */
  datatype DropOutcome = Accepted | TooMany

  /** The zone as first rendered. */
  function Empty(maxFiles: nat): (z: Zone)
    ensures |z.files| == 0 && !z.isUploading && z.maxFiles == maxFiles
  {
    Zone([], false, maxFiles)
  }

  /** A new zone is valid, hides the success banner and ignores an upload
      click; it takes a first drop exactly when the drop fits the limit,
      and then holds the dropped files, in order, all pending. */
  lemma EmptyZoneStarts(maxFiles: nat, accepted: seq<FileRef>)
    ensures Valid(Empty(maxFiles)) && !AllCompleted(Empty(maxFiles))
    ensures StartUpload(Empty(maxFiles)) == (Empty(maxFiles), [])
    ensures Drop(Empty(maxFiles), accepted).1 == Accepted <==> |accepted| <= maxFiles
    ensures |accepted| <= maxFiles ==>
      var z := Drop(Empty(maxFiles), accepted).0;
      && Valid(z) && !AllCompleted(z)
      && |z.files| == |accepted|
      && (forall i :: 0 <= i < |accepted| ==> z.files[i] == Fresh(accepted[i]))
  {
    if 0 < |accepted| <= maxFiles {
      assert Drop(Empty(maxFiles), accepted).0.files[0].status == Pending;
    }
  }

  /** A freshly selected file: pending, no progress, no URL yet. */
  function Fresh(f: FileRef): UploadedFile {
    UploadedFile(f, None, 0, Pending)
  }

  /** `onDrop`: a drop that would take the list past `maxFiles` is refused
      whole; otherwise the new files are appended, in order, as pending. */
  function Drop(z: Zone, accepted: seq<FileRef>): (r: (Zone, DropOutcome))
    ensures r.1 == TooMany <==> |z.files| + |accepted| > z.maxFiles
    ensures r.1 == TooMany ==> r.0 == z
    ensures r.1 == Accepted ==>
      && r.0.isUploading == z.isUploading && r.0.maxFiles == z.maxFiles
      && |r.0.files| == |z.files| + |accepted| <= z.maxFiles
      && r.0.files[..|z.files|] == z.files
      && (forall i :: 0 <= i < |accepted| ==>
            r.0.files[|z.files| + i] == UploadedFile(accepted[i], None, 0, Pending))
  {
    if |z.files| + |accepted| > z.maxFiles then (z, TooMany)
    else
      var added := seq(|accepted|, i requires 0 <= i < |accepted| => Fresh(accepted[i]));
      (z.(files := z.files + added), Accepted)
  }

  /** `removeFile(index)`: drops entry `index`; the others keep their order. */
  function Remove(z: Zone, index: nat): (r: Zone)
    requires index < |z.files|
    ensures |r.files| == |z.files| - 1
    ensures forall j :: 0 <= j < index ==> r.files[j] == z.files[j]
    ensures forall j :: index <= j < |r.files| ==> r.files[j] == z.files[j + 1]
    ensures r.isUploading == z.isUploading && r.maxFiles == z.maxFiles
  {
    z.(files := z.files[..index] + z.files[index + 1..])
  }

  /** `uploadFiles`: nothing happens on an empty list; otherwise the zone
      is busy, every entry (completed ones included) is uploading, and the
      files are handed to the hosting service in list order. */
  function StartUpload(z: Zone): (r: (Zone, seq<FileRef>))
    ensures |z.files| == 0 ==> r == (z, [])
    ensures |z.files| > 0 ==>
      && r.0.isUploading && r.0.maxFiles == z.maxFiles
      && |r.0.files| == |z.files| == |r.1|
      && (forall j :: 0 <= j < |z.files| ==>
            r.0.files[j] == z.files[j].(status := Uploading) && r.1[j] == z.files[j].file)
  {
    if |z.files| == 0 then (z, [])
    else
      var files := seq(|z.files|, j requires 0 <= j < |z.files| => z.files[j].(status := Uploading));
      var batch := seq(|z.files|, j requires 0 <= j < |z.files| => z.files[j].file);
      (Zone(files, true, z.maxFiles), batch)
  }

  /** `onUploadProgress(p)`: only uploading entries take the new
      percentage, and nothing else about any entry changes. */
  function Progress(z: Zone, p: int): (r: Zone)
    ensures |r.files| == |z.files|
    ensures r.isUploading == z.isUploading && r.maxFiles == z.maxFiles
    ensures forall j :: 0 <= j < |z.files| && z.files[j].status != Uploading ==> r.files[j] == z.files[j]
    ensures forall j :: 0 <= j < |z.files| && z.files[j].status == Uploading ==>
      r.files[j] == z.files[j].(progress := p)
  {
    var files := seq(|z.files|, j requires 0 <= j < |z.files| =>
      if z.files[j].status == Uploading then z.files[j].(progress := p) else z.files[j]);
    z.(files := files)
  }

  /** `onClientUploadComplete(res)`: with a result, entry `i` takes URL
      `urls[i]` (none when the result is shorter than the list), becomes
      completed at 100%, and the URLs are reported to the page; the zone
      is no longer busy either way. */
  function Complete(z: Zone, res: Option<seq<string>>): (r: (Zone, Option<seq<string>>))
    ensures !r.0.isUploading && r.0.maxFiles == z.maxFiles
    ensures |r.0.files| == |z.files|
    ensures r.1 == res
    ensures res.None? ==> r.0.files == z.files
    ensures res.Some? ==> forall i :: 0 <= i < |z.files| ==>
      && r.0.files[i].file == z.files[i].file
      && r.0.files[i].status == Completed
      && r.0.files[i].progress == 100
      && r.0.files[i].url == (if i < |res.value| then Some(res.value[i]) else None)
  {
    match res
    case None => (z.(isUploading := false), None)
    case Some(urls) =>
      var files := seq(|z.files|, i requires 0 <= i < |z.files| =>
        z.files[i].(url := if i < |urls| then Some(urls[i]) else None, status := Completed, progress := 100));
      (Zone(files, false, z.maxFiles), res)
  }

  /** `onUploadError`: every entry is marked failed, its URL and progress
      kept, and the zone is no longer busy. */
  function Fail(z: Zone): (r: Zone)
    ensures !r.isUploading && r.maxFiles == z.maxFiles
    ensures |r.files| == |z.files|
    ensures forall i :: 0 <= i < |z.files| ==> r.files[i] == z.files[i].(status := Error)
  {
    var files := seq(|z.files|, i requires 0 <= i < |z.files| => z.files[i].(status := Error));
    Zone(files, false, z.maxFiles)
  }

  /** The success banner: a non-empty list whose every entry completed. */
  predicate AllCompleted(z: Zone) {
    |z.files| > 0 && forall i :: 0 <= i < |z.files| ==> z.files[i].status == Completed
  }

  /** The invariant every step keeps: the list respects its limit and
      every progress value is a percentage. */
  predicate Valid(z: Zone) {
    && |z.files| <= z.maxFiles
    && forall i :: 0 <= i < |z.files| ==> 0 <= z.files[i].progress <= 100
  }

  /** Any step of the zone, with the hosting service reporting progress
      as a percentage, keeps the zone valid. */
  lemma StepsPreserveValid(z: Zone, accepted: seq<FileRef>, index: nat, p: int, res: Option<seq<string>>)
    requires Valid(z)
    requires 0 <= p <= 100
    ensures Valid(Drop(z, accepted).0)
    ensures index < |z.files| ==> Valid(Remove(z, index))
    ensures Valid(StartUpload(z).0)
    ensures Valid(Progress(z, p))
    ensures Valid(Complete(z, res).0)
    ensures Valid(Fail(z))
  {
    if index < |z.files| {
      var r := Remove(z, index);
      forall j | 0 <= j < |r.files| ensures 0 <= r.files[j].progress <= 100 {
        if j < index { assert r.files[j] == z.files[j]; } else { assert r.files[j] == z.files[j + 1]; }
      }
    }
  }

  /** The progress ticks of one batch, applied in order. */
  function Ticks(z: Zone, ps: seq<int>): (r: Zone)
    ensures |r.files| == |z.files|
    decreases |ps|
  {
    if |ps| == 0 then z else Ticks(Progress(z, ps[0]), ps[1..])
  }

  /** Progress ticks never change an entry's file, URL or status. */
  lemma {:induction false} TicksKeepStatus(z: Zone, ps: seq<int>)
    ensures forall i :: 0 <= i < |z.files| ==>
      && Ticks(z, ps).files[i].status == z.files[i].status
      && Ticks(z, ps).files[i].file == z.files[i].file
      && Ticks(z, ps).files[i].url == z.files[i].url
    decreases |ps|
  {
    if |ps| > 0 {
      TicksKeepStatus(Progress(z, ps[0]), ps[1..]);
    }
  }

  /** A batch that starts, reports any progress and then succeeds with one
      URL per file leaves every file completed with its own URL, in order,
      and shows the success banner. */
  lemma {:induction false} SuccessfulBatch(z: Zone, ps: seq<int>, urls: seq<string>)
    requires |z.files| > 0
    requires |urls| == |z.files|
    ensures var (done, reported) := Complete(Ticks(StartUpload(z).0, ps), Some(urls));
      && AllCompleted(done)
      && !done.isUploading
      && reported == Some(urls)
      && (forall i :: 0 <= i < |z.files| ==>
            done.files[i].url == Some(urls[i]) && done.files[i].file == z.files[i].file)
  {
    var started := StartUpload(z).0;
    TicksKeepStatus(started, ps);
  }

  /** Completion shows the banner exactly when the list is non-empty. */
  lemma CompleteShowsBanner(z: Zone, urls: seq<string>)
    ensures AllCompleted(Complete(z, Some(urls)).0) <==> |z.files| > 0
  {
  }

  /** A failed batch never shows the banner, and nothing stays busy. */
  lemma FailedBatch(z: Zone, ps: seq<int>)
    ensures var failed := Fail(Ticks(StartUpload(z).0, ps));
      && !AllCompleted(failed)
      && !failed.isUploading
      && (forall i :: 0 <= i < |z.files| ==> failed.files[i].file == z.files[i].file)
  {
    TicksKeepStatus(StartUpload(z).0, ps);
    if |z.files| > 0 {
      assert Fail(Ticks(StartUpload(z).0, ps)).files[0].status == Error;
    }
  }

  /** The component's own limit: a zone mounted without one takes a drop
      of at most five files, and no more. */
  lemma DefaultZoneTakesFive(accepted: seq<FileRef>)
    ensures Drop(Empty(DefaultMaxFiles), accepted).1 == Accepted <==> |accepted| <= 5
    ensures |accepted| == 5 ==> !DropEnabled(Drop(Empty(DefaultMaxFiles), accepted).0)
  {
    EmptyZoneStarts(DefaultMaxFiles, accepted);
  }

  /** The drop area takes input only while idle and below the limit; it
      is disabled, and hidden at the limit, otherwise. */
  predicate DropEnabled(z: Zone) {
    !z.isUploading && |z.files| < z.maxFiles
  }

  /** An entry's remove button is rendered unless that entry is uploading. */
  predicate RemoveShown(z: Zone, index: nat) {
    index < |z.files| && z.files[index].status != Uploading
  }

  /** The upload button is rendered for a non-empty list that is not all
      completed, and is disabled while a batch is in flight. */
  predicate UploadEnabled(z: Zone) {
    |z.files| > 0 && !AllCompleted(z) && !z.isUploading
  }

  /** What the guest can do with the controls on screen. */
  datatype Action = DropFiles(accepted: seq<FileRef>) | RemoveAt(index: nat) | ClickUpload

  /** A guest action through the rendered controls: a disabled or hidden
      control does nothing; an enabled one runs its handler. The second
      component is the batch handed to the hosting service. */
  function Act(z: Zone, a: Action): (r: (Zone, seq<FileRef>))
    ensures a.DropFiles? ==> r == if DropEnabled(z) then (Drop(z, a.accepted).0, []) else (z, [])
    ensures a.RemoveAt? ==> r == if RemoveShown(z, a.index) then (Remove(z, a.index), []) else (z, [])
    ensures a.ClickUpload? ==> r == if UploadEnabled(z) then StartUpload(z) else (z, [])
  {
    match a
    case DropFiles(accepted) => if DropEnabled(z) then (Drop(z, accepted).0, []) else (z, [])
    case RemoveAt(index) => if RemoveShown(z, index) then (Remove(z, index), []) else (z, [])
    case ClickUpload => if UploadEnabled(z) then StartUpload(z) else (z, [])
  }

  /** While a batch is in flight, every entry is uploading: the entries
      the hosting service is working on are exactly the listed ones. */
  predicate InBatch(z: Zone) {
    z.isUploading ==> forall i :: 0 <= i < |z.files| ==> z.files[i].status == Uploading
  }

  /** Mid-batch, no control does anything: the drop area and the upload
      button are disabled and no remove button is shown. */
  lemma ActWhileUploading(z: Zone, a: Action)
    requires z.isUploading && InBatch(z)
    ensures Act(z, a) == (z, [])
  {
  }

  /** Every guest action and every callback of the hosting service keeps
      the batch invariant, so a completion only ever marks files that
      were sent. */
  lemma {:induction false} GuardedStepsKeepBatch(z: Zone, a: Action, p: int, res: Option<seq<string>>)
    requires InBatch(z)
    ensures InBatch(Act(z, a).0)
    ensures InBatch(Progress(z, p))
    ensures InBatch(Complete(z, res).0)
    ensures InBatch(Fail(z))
  {
    if z.isUploading {
      ActWhileUploading(z, a);
    } else if a.ClickUpload? && UploadEnabled(z) {
      var s := StartUpload(z).0;
      forall i | 0 <= i < |s.files| ensures s.files[i].status == Uploading {
        assert s.files[i] == z.files[i].(status := Uploading);
      }
    }
  }

  /** When `startUpload` throws instead of calling back, the catch only
      logs: the zone stays busy with every entry uploading, and no control
      does anything any more. */
  lemma ThrownStartStaysBusy(z: Zone, a: Action)
    requires UploadEnabled(z)
    ensures var started := StartUpload(z).0;
      && started.isUploading
      && InBatch(started)
      && |started.files| == |z.files|
      && Act(started, a) == (started, [])
  {
    var started := StartUpload(z).0;
    assert InBatch(started);
    ActWhileUploading(started, a);
  }

  /** A full list refuses every non-empty drop, which is why the drop
      area is disabled at the limit. */
  lemma FullZoneRefusesDrops(z: Zone, accepted: seq<FileRef>)
    requires |z.files| >= z.maxFiles
    requires |accepted| > 0
    ensures Drop(z, accepted) == (z, TooMany)
  {
  }
}

=== FILE: wrappers.dfy ===
/** Small shared vocabulary: optional values, the health of an external
    collaborator (database, mail relay, auth provider), JavaScript
    truthiness of optional strings, and the `{success, data | error}`
    reply shape every API route uses. */
module Wrappers {

  /** A value that may be absent (`undefined` or `null` in the program). */
  datatype Option<+T> = None | Some(value: T) {

    /** The value, or `default` when absent. */
    function GetOr(default: T): T {
      match this
      case Some(v) => v
      case None => default
    }
  }

  /** Whether a call into an external collaborator succeeds or throws;
      a failing call carries the message of the thrown error. */
  datatype Health = Up | Down(message: string)

  /** JavaScript truthiness of an optional string: `undefined`, `null`
      and `''` are falsy, every other string is truthy. */
  predicate Truthy(o: Option<string>) {
    o.Some? && o.value != ""
  }

  /** The expression `x || null` on an optional string: falsy values
      are stored as `null`. */
  function OrNull(o: Option<string>): (r: Option<string>)
    ensures r.Some? <==> Truthy(o)
    ensures r.Some? ==> r == o
  {
    if Truthy(o) then o else None
  }

  /** The body of a JSON reply: `{success: true, data}` or
      `{success: false, error}`. */
  datatype Payload<+T> = Success(data: T) | Failure(error: string)

  /** An HTTP reply: status code and JSON body. */
  datatype Reply<+T> = Reply(status: nat, body: Payload<T>) {

    /** `response.ok` as the browser computes it. */
    predicate Ok() {
      200 <= status < 300
    }
  }

  /** What a browser `fetch` produced, as a client handler sees it: a
      response with `ok` set, a response without it, or a thrown request. */
  datatype Response = OkResponse | ErrorResponse | NetworkError

  /** How the browser classifies a reply it received. */
  function Classify<T>(r: Reply<T>): (resp: Response)
    ensures resp == OkResponse <==> r.Ok()
    ensures resp != NetworkError
  {
    if r.Ok() then OkResponse else ErrorResponse
  }
}
